=== FILE: README.md ===
# MCPClient protocol core, in Dafny

This project models the sequential protocol logic of `MCPClient` (`mcp_client_demo.py`), a small asyncio client for a length-prefixed JSON messaging protocol. The asyncio plumbing is left out. Four pieces are modelled:

- **Frame codec** (`framing.dfy`, module `Framing`). A frame is a 4-byte big-endian unsigned length (`struct` format `">I"`) followed by that many body bytes. `EncodeFrame` is `_write_message`'s framing step. `ReadExact` and `ReadMessage` are `_read_exact` and `_read_message` applied to the bytes still to be read.
- **Request construction and ids** (`messages.dfy`, module `Messages`; `client.dfy`). `BuildRequest` is the copy / `setdefault("type", "request")` / `["msg_id"] = id` step. `NextMsgId` is `_next_msg_id`. `IntString` is Python's `str()` of an int, which gives the registry keys.
- **Correlation registry** (`registry.dfy`, module `Registry`). `_response_futures` is a map from `str(msg_id)` to a `Slot`, one of `Pending | Resolved(msg) | Failed(reason)`. `HandleMessage` is `_handle_message`. `FailPending` is the loop in `close()` and in the reader loop's `finally` that fails every not-done future.
- **Client state machine and reader loop** (`client.dfy`, module `McpClient`):
  - `send_request` is split at two of its three suspension points: `await self.connect()` (line 66) and the wait for the reply (line 79). The third, `await self._write_message(...)` (line 76), stays one step with the registration before it, as "## Left out" says. `StartRequest` runs from the start up to the reply wait when nothing else runs during the connect. A call that does suspend in the connect is the event `ConnectSuspended`, and it later resumes with `ResumeAfterConnect`. `Allocate` is the part after the connect (lines 68-82, up to the wait), and `AwaitReply` runs from the wait on.
  - `Close` is `close()`. `LoseConnection` is the reader loop's `finally`. `HeartbeatTick` is one round of `_heartbeat_loop`.
  - `ReaderLoop` runs `_reader_loop` over a whole byte stream.
  - `Step` and `Run` apply these operations in any order, to stand in for the event loop's interleavings. They use the send with both corrections listed under "## Findings": the entry is popped when the write fails, and `_closed` is checked again after the connect. `Inv` is the invariant every client reachable through `Step` keeps, and `Settled` says that a closed client has nothing pending.
  - `StepAsWritten` and `RunAsWritten` are the same machine with `send_request` exactly as written. The two share `SharedStep`, the six events that do not allocate an id. Clients of the code as written keep `InvAsWritten`, which is `Inv` without "every entry has a waiting call". Under it every registry key is `str(id)` of an id already handed out (`WeakInv`), every waiting call still has its entry, and a resolved entry holds a reply naming its own key. At-most-once resolution, `_closed` never being reset and the ids 1, 2, 3, … are proved for both machines.

I/O is modelled as arguments:
- whether `connect()` opened the connection (`connectOk`);
- whether the write and `drain` went through (`writeOk`);
- whether a request's deadline passed (`timedOut`);
- the bytes the connection delivers (a `seq<byte>`).

JSON text is abstract. `serialize: Object -> seq<byte>` stands for `json.dumps(...).encode("utf-8")`. `parse: seq<byte> -> Option<Json>` stands for `json.loads(body.decode("utf-8"))` and returns `None` on failure.

The `waiting` field of `Client` holds the ids of the `send_request` calls currently suspended in `wait_for`. It is part of the coroutines' state, not a field of the Python object. The invariant needs it: the registry holds exactly one entry per waiting call. Likewise, `connecting` counts the calls suspended in `await self.connect()`.

A frame that does not parse is not skipped. `_read_message` returns `None` for it, and `_reader_loop` then leaves the loop (lines 97-98). So the loop ends, and the frames after it are never dispatched (`ReaderLoopStopsAtUnparsableFrame`). Entries are not removed when their futures complete either. `close()` and the reader loop's `finally` fail futures but never remove them. Only the sender's own `finally` pops its entry (lines 81-82).

## Model

| member | source | states |
|---|---|---|
| `Framing.PackLength` | mcp_client_demo.py:88 | the length prefix is exactly 4 bytes, for any length below 2^32 |
| `Framing.UnpackLength` | mcp_client_demo.py:117 | any 4 bytes decode to a length below 2^32 |
| `Framing.UnpackPack` | mcp_client_demo.py:88 | unpacking the packed prefix of a length n < 2^32 gives n back |
| `Framing.PackUnpack` | mcp_client_demo.py:117 | every 4-byte prefix is the packing of the length it decodes to, so the prefix encoding is a bijection |
| `Framing.EncodeFrame` | mcp_client_demo.py:87-89 | a body can be framed iff it is shorter than 2^32 bytes; the frame is 4 + len(body) bytes, ends with the body, and its prefix decodes to len(body) |
| `Framing.ReadExact` | mcp_client_demo.py:128-134 | succeeds iff n bytes remain; the bytes read and the bytes left concatenate to the input, and exactly n are read |
| `Framing.ReadMessage` | mcp_client_demo.py:111-126 | yields `None` for fewer than 4 bytes, a zero length, or a length longer than the remaining bytes; a message it yields is never `null`, and it consumes more than the 4-byte prefix, leaving a suffix of the input |
| `Framing.FrameRoundTrip` | mcp_client_demo.py:111-126 | reading `encode(body) ++ rest`, for a non-empty body that parses to a message, yields that message and leaves exactly `rest` |
| `Framing.UnparsableFrame` | mcp_client_demo.py:123-126 | a framed body that does not parse, or parses to `null`, reads as `None` whatever follows it |
| `Framing.ZeroLengthFrame` | mcp_client_demo.py:117-119 | a zero length prefix reads as `None` whatever follows it |
| `Messages.IntString` | mcp_client_demo.py:74 | `str(i)` is non-empty, starts with a digit exactly when i is non-negative, every character after the optional `-` is a digit, and has no leading zero: it starts with `0` only for 0 itself, and a negative numeral is `-` followed by a non-zero digit |
| `Messages.ParseIntString` | mcp_client_demo.py:74 | the decimal key of an id reads back as that id |
| `Messages.IntStringInjective` | mcp_client_demo.py:140 | two ids have the same registry key iff they are equal |
| `Messages.ReplyKey` | mcp_client_demo.py:138-140 | a reply names a key only when it is an object carrying `reply_to` |
| `Messages.ReplyKeyIntOrString` | mcp_client_demo.py:138-140 | `reply_to` given as the integer id or as its decimal string names the same key |
| `Messages.ReplyKeyIntMatchesOnlyItself` | mcp_client_demo.py:138-140 | an integer `reply_to` j names the key of id iff j equals id |
| `Messages.ReplyKeyNamesIdIff` | mcp_client_demo.py:138-140 | a reply names the key of id iff its `reply_to` is id as an integer or as its decimal string; no other value, boolean included, gives that key |
| `Messages.NullReplyNamesNothing` | mcp_client_demo.py:138-139 | a `reply_to` of `null` names no key |
| `Messages.BuildRequest` | mcp_client_demo.py:68-71 | the request has the caller's keys plus `type` and `msg_id`; `msg_id` is the fresh id; `type` is kept if present, else "request"; every other field is kept |
| `Messages.BuildRequestRenumbers` | mcp_client_demo.py:69-71 | rebuilding a built request with a new id only replaces `msg_id` |
| `Registry.FailPending` | mcp_client_demo.py:107-109 | every pending future fails with the given reason; done futures keep their outcome; no entry is added or removed |
| `Registry.FailPendingLeavesNothingPending` | mcp_client_demo.py:54-56 | after failing all, no entry is pending |
| `Registry.FailPendingFirstWins` | mcp_client_demo.py:54-56 | a second fail-all, with either reason, changes nothing: the first decides |
| `Registry.HandleMessage` | mcp_client_demo.py:136-146 | a non-object is rejected; a message resolves an entry iff its `str(reply_to)` names a registered pending entry, and then it resolves that entry with itself and changes no other; everything else takes the notification path |
| `Registry.HandleMessageKeepsDone` | mcp_client_demo.py:141-142 | dispatch never changes an entry that is already done |
| `Registry.ReplyResolvesItsRequest` | mcp_client_demo.py:138-143 | a reply whose `reply_to` is id (int or decimal string) resolves exactly the pending entry of id |
| `Registry.NullReplyIsNotification` | mcp_client_demo.py:138-146 | a message whose `reply_to` is `null` takes the notification path and changes no entry |
| `Registry.HandleMessageNeverReopens` | mcp_client_demo.py:141-142 | when every entry is done, dispatch leaves every entry done |
| `Registry.ReplyForOtherIdIgnored` | mcp_client_demo.py:140-142 | a reply naming another integer id leaves this id's entry unchanged |
| `McpClient.NextMsgId` | mcp_client_demo.py:160-162 | the id handed out is the counter's new value, one more than before, and nothing else changes |
| `McpClient.AllocateAsWritten` | mcp_client_demo.py:68-82 | as written, a failed write, or a body too long to frame, still consumes the id and leaves its entry registered as pending; sending happens iff the write succeeds and the body fits |
| `McpClient.Allocate` | mcp_client_demo.py:68-82 | corrected: a sent request takes id counter+1 and registers it as pending and waiting, and its frame's prefix is the body length of the built request; a failed write consumes the id and leaves no entry |
| `McpClient.AsWrittenAgreesExceptOnWriteFailure` | mcp_client_demo.py:76-82 | the corrected allocation differs from the code as written only in the registry after a failed write |
| `McpClient.StartRequestAsWritten` | mcp_client_demo.py:63-82 | as written: a closed client refuses, and so does a failed connect, with state unchanged; a sent request takes id counter+1, registers it as pending and waiting, marks the client connected, and frames the built request; a failed write consumes the id, marks the client connected and leaves the entry pending; sending happens iff open, connected or connectable, writable, and the body fits |
| `McpClient.StartRequest` | mcp_client_demo.py:58-82 | a closed client refuses before an id is allocated, and so does a failed connect, with state unchanged; a sent request takes id counter+1, registers it as pending and waiting, marks the client connected and changes nothing else, and writes a frame whose prefix is its body length and whose body is the built request; a failed write consumes the id, marks the client connected and leaves no entry; sending happens iff open, connected or connectable, writable, and the body fits |
| `McpClient.ResumeAfterConnectAsWritten` | mcp_client_demo.py:65-82 | as written, a call resuming after its connect does not look at `_closed` again: a failed connect refuses with state unchanged; a successful one allocates id counter+1, marks the client connected and registers the entry as pending, even on a closed client, and either sends (id waiting, frame of the built request) or, when the write fails, leaves the entry pending |
| `McpClient.StartAsWrittenAgrees` | mcp_client_demo.py:63-82 | `send_request` as written and fixed give the same result, except after a failed write, where the code as written also keeps the fresh id's pending entry |
| `McpClient.ResumeAsWrittenAgrees` | mcp_client_demo.py:63-82 | on a client that is still open, resuming after the connect as written and fixed give the same result, except after a failed write, where the code as written keeps the pending entry |
| `McpClient.ResumeAfterConnect` | mcp_client_demo.py:63-82 | corrected: a failed connect refuses with state unchanged; a client closed during the connect refuses before an id is allocated, only marked connected; otherwise the request is allocated: sent with id counter+1, the counter advanced, the entry pending and waiting, and the frame of the built request, or after a failed write the id consumed and no entry left |
| `McpClient.Suspend` | mcp_client_demo.py:63-66 | only a call on an open client without a writer suspends in the connect; nothing else changes |
| `McpClient.AwaitReply` | mcp_client_demo.py:78-82 | a waiting call wakes iff its future is done or its deadline passed; on waking it pops its own entry and nothing else changes; a reply returned is the one its future was resolved with; an exception is the future's failure reason or, for a still-pending future, a timeout |
| `McpClient.Close` | mcp_client_demo.py:41-56 | the client is closed; every pending future fails with "Client closed"; done entries keep their outcome; no entry is removed; the counter, the waiting calls, the writer and the calls suspended in a connect are unchanged |
| `McpClient.LoseConnection` | mcp_client_demo.py:105-109 | every pending future fails with "Connection lost"; done entries keep their outcome; the registry's keys, the closed flag, the counter, the writer and the waiting and connecting calls are unchanged |
| `McpClient.Receive` | mcp_client_demo.py:95-104 | a non-object message ends the loop, failing every pending future with "Connection lost"; an object message changes the registry only by resolving, with itself, the pending entry its `str(reply_to)` names; keys and done entries are kept, and the closed flag, the counter, the writer and the waiting and connecting calls are unchanged |
| `McpClient.Connect` | mcp_client_demo.py:34-39 | a successful connect gives the client a writer; nothing else changes |
| `McpClient.HeartbeatTick` | mcp_client_demo.py:148-158 | a closed client sends no heartbeat; a heartbeat never changes the closed flag, since its failure is swallowed |
| `McpClient.HeartbeatIsRequest` | mcp_client_demo.py:153 | a heartbeat is the request `{"type": "heartbeat"}` with a fresh `msg_id` |
| `McpClient.ReaderLoop` | mcp_client_demo.py:92-109 | on exit no entry is pending; every entry that was pending ends resolved or failed with "Connection lost"; done entries keep their outcome; no entry is added or removed |
| `McpClient.ReaderLoopStopsAtUnparsableFrame` | mcp_client_demo.py:95-98 | at a frame that does not parse, the loop ends: nothing after it is dispatched, no notification is emitted, and every pending entry fails with "Connection lost" |
| `McpClient.ReaderLoopStopsAtZeroLength` | mcp_client_demo.py:117-119 | a zero length prefix ends the loop the same way, whatever follows |
| `McpClient.ReaderLoopStopsAtShortFrame` | mcp_client_demo.py:120-122 | a length longer than the remaining bytes ends the loop the same way |
| `McpClient.ReaderLoopDispatchesFrame` | mcp_client_demo.py:95-99 | a well-formed object frame is dispatched, then the loop continues with exactly the bytes after it; a notification is emitted in order |
| `McpClient.ReaderLoopStep` | mcp_client_demo.py:95-99 | one pass of the loop over an object message has the registry effect of dispatching that message, then the loop goes on with the remaining bytes |
| `McpClient.ReaderLoopIsEventRun` | mcp_client_demo.py:92-109 | the whole-stream loop's effect on the registry equals the event machine fed one `Received` per message read before the loop stops, then `ReaderStopped` |
| `McpClient.DecodeStream` | mcp_client_demo.py:95-126 | of the messages the loop reads before it stops, only the last can fail to be an object: dispatching any earlier one returned and the loop went on |
| `McpClient.DispatchStream` | mcp_client_demo.py:99-109 | dispatching the decoded messages in order, then failing what is pending, keeps every key and leaves every entry done |
| `McpClient.ReaderLoopDispatches` | mcp_client_demo.py:92-109 | the loop over the raw bytes has exactly the registry effect of dispatching the messages it decodes, in order, then failing every pending entry with "Connection lost" |
| `McpClient.RunDeliveriesDispatches` | mcp_client_demo.py:95-109 | the event machine fed one `Received` per message and then `ReaderStopped` has that same registry effect, for every message sequence in which only the last may fail to be an object |
| `McpClient.StopAtNonObject` | mcp_client_demo.py:99-109 | a message that is not an object, then the loop's end, fails every pending entry once with "Connection lost" |
| `McpClient.InitInv` | mcp_client_demo.py:30-32 | a fresh client satisfies the invariant |
| `McpClient.AllocatePreservesInv` | mcp_client_demo.py:68-82 | with the corrected send, allocating a request keeps the invariant: the fresh key never collides with a live entry |
| `McpClient.StartPreservesInv` | mcp_client_demo.py:63-82 | with the corrected send, starting a request keeps the invariant |
| `McpClient.ResumePreservesInv` | mcp_client_demo.py:63-82 | with the `_closed` check repeated after the connect, resuming a suspended call keeps the invariant |
| `McpClient.ReceivePreservesInv` | mcp_client_demo.py:136-146 | dispatching a message keeps the invariant: a resolved entry holds a reply naming its own key |
| `McpClient.AwaitPreservesInv` | mcp_client_demo.py:78-82 | a call that wakes and pops its own entry keeps the invariant |
| `McpClient.StepPreservesInv` | mcp_client_demo.py:58-146 | with the corrected send, every operation keeps the invariant: one entry per waiting call, keyed by `str(id)`; every id was issued; a resolved entry holds a reply naming its own key |
| `McpClient.RunPreservesInv` | mcp_client_demo.py:58-146 | with the corrected send, any sequence of operations keeps the invariant |
| `McpClient.ReachableInv` | mcp_client_demo.py:30-32 | with the corrected send, every client reachable from a fresh one satisfies the invariant |
| `McpClient.InvIsWeakInv` | mcp_client_demo.py:73-74 | a client satisfying the invariant also satisfies the weaker one: every key is `str(id)` of an id handed out |
| `McpClient.IssuedKeysGrow` | mcp_client_demo.py:160-162 | handing out the next id adds exactly its key to the set of issued keys |
| `McpClient.FreshKeyNotIssued` | mcp_client_demo.py:160-162 | the next id's key is not the key of any earlier id |
| `McpClient.SendNeverReresolves` | mcp_client_demo.py:58-146 | in both machines, a step leaves a done entry alone unless it is the fresh id's key |
| `McpClient.AllocateMoves` | mcp_client_demo.py:68-76 | allocating, with either write path, moves the counter up by exactly one, adds no key but the fresh one, and changes no done entry |
| `McpClient.StepMoves` | mcp_client_demo.py:58-146 | every event, in both machines: the counter stays or moves up by one, the only key that can appear is the next id's, no key appears unless the counter moves, a done entry other than the fresh key keeps its outcome, and a closed client stays closed; each machine keeps its invariant |
| `McpClient.ConnectResumedMoves` | mcp_client_demo.py:66-76 | a `send_request` resuming from its connect moves the client as every event does, and keeps a closed client with no pending entry so |
| `McpClient.ConnectResumedMovesAsWritten` | mcp_client_demo.py:66-76 | as written, the resumption moves the client as every event does; there is no `Settled` clause, because as written a resumption can register a pending entry on a closed client (Findings row 2) |
| `McpClient.ConnectResumedKeepsInv` | mcp_client_demo.py:66-82 | with the corrected send, the resumption keeps the invariant |
| `McpClient.ConnectResumedKeepsInvAsWritten` | mcp_client_demo.py:66-82 | as written, the resumption keeps `InvAsWritten` |
| `McpClient.StepNeverReresolves` | mcp_client_demo.py:141 | with the corrected send, once an entry is done no operation gives it another outcome; at most its sender removes it |
| `McpClient.RunNeverReresolves` | mcp_client_demo.py:141 | with the corrected send, over any run a done entry keeps its outcome while it stays registered |
| `McpClient.RunDoesNotReAdd` | mcp_client_demo.py:73-74 | with the corrected send, a popped key of an issued id is never registered again |
| `McpClient.StepDoesNotReAdd` | mcp_client_demo.py:73-74 | with the corrected send, one step never registers the key of an issued id that is no longer present, and the key stays among the issued ones |
| `McpClient.StepAsWrittenDoesNotReAdd` | mcp_client_demo.py:73-74 | the same for the code as written |
| `McpClient.StepAddsOnlyFreshKey` | mcp_client_demo.py:73-74 | with the corrected send, a step registers at most the next id's key, and only when it hands that id out |
| `McpClient.StepAsWrittenAddsOnlyFreshKey` | mcp_client_demo.py:73-74 | as written, a step registers at most the next id's key and advances the counter by at most one |
| `McpClient.StepAsWrittenKeepsWeakInv` | mcp_client_demo.py:58-146 | as written, every operation keeps the weaker invariant |
| `McpClient.RunAsWrittenKeepsWeakInv` | mcp_client_demo.py:58-146 | as written, any sequence of operations keeps the weaker invariant |
| `McpClient.ReachableWeakInv` | mcp_client_demo.py:30-32 | as written, every reachable client satisfies the weaker invariant |
| `McpClient.StepAsWrittenNeverReresolves` | mcp_client_demo.py:141 | as written too, once an entry is done no operation gives it another outcome |
| `McpClient.RunAsWrittenDoesNotReAdd` | mcp_client_demo.py:73-74 | as written, a popped key of an issued id is never registered again |
| `McpClient.RunAsWrittenNeverReresolves` | mcp_client_demo.py:141 | as written too, over any run a done entry keeps its outcome while it stays registered |
| `McpClient.InvIsInvAsWritten` | mcp_client_demo.py:73-82 | the invariant of the fixed code implies the one of the code as written |
| `McpClient.InitInvAsWritten` | mcp_client_demo.py:30-32 | a fresh client satisfies the as-written invariant |
| `McpClient.AllocateAsWrittenKeepsInv` | mcp_client_demo.py:68-82 | as written, allocating a request keeps `InvAsWritten`: every waiting call has its entry, every waiting id was issued, every key is an issued id's, a resolved entry names its own key |
| `McpClient.StartAsWrittenKeepsInv` | mcp_client_demo.py:63-82 | as written, starting a request keeps `InvAsWritten` |
| `McpClient.ResumeAsWrittenKeepsInv` | mcp_client_demo.py:65-82 | as written, resuming a call suspended in its connect keeps `InvAsWritten`, closed client or not |
| `McpClient.ReceiveKeepsInvAsWritten` | mcp_client_demo.py:136-146 | dispatching a message keeps `InvAsWritten`: a resolved entry holds a reply naming its own key |
| `McpClient.AwaitKeepsInvAsWritten` | mcp_client_demo.py:78-82 | a call that wakes and pops its own entry keeps `InvAsWritten` |
| `McpClient.FailAllKeepsInvAsWritten` | mcp_client_demo.py:54-56 | failing the pending futures, in `close()` or the reader loop's `finally`, keeps `InvAsWritten` |
| `McpClient.StepAsWrittenKeepsInv` | mcp_client_demo.py:58-146 | as written, every operation keeps `InvAsWritten` |
| `McpClient.RunAsWrittenKeepsInv` | mcp_client_demo.py:58-146 | as written, any sequence of operations keeps `InvAsWritten` |
| `McpClient.ReachableInvAsWritten` | mcp_client_demo.py:30-32 | every client the code as written reaches satisfies `InvAsWritten` |
| `McpClient.StepKeepsSettled` | mcp_client_demo.py:42-56 | with the corrected send, no operation makes a closed client's future pending again |
| `McpClient.RunKeepsSettled` | mcp_client_demo.py:42-56 | with the corrected send, a closed client with nothing pending stays that way over any run |
| `McpClient.CloseSettlesForGood` | mcp_client_demo.py:41-56 | with the corrected send, after `close()` the client stays closed and, whatever runs next, every registered future is done |
| `McpClient.AsWrittenCloseDuringConnectRegisters` | mcp_client_demo.py:63-74 | as written, a `close()` during a fresh client's connect is followed by request 1 being registered as pending on the closed client; the corrected machine refuses that call and registers nothing |
| `McpClient.ClosedIsSticky` | mcp_client_demo.py:42 | `_closed` never returns to false, in the fixed code and as written |
| `McpClient.StepCounter` | mcp_client_demo.py:160-162 | each operation leaves the counter alone or advances it by exactly one |
| `McpClient.IssuedAreConsecutive` | mcp_client_demo.py:160-162 | with the corrected send, the ids handed out are the consecutive numbers after the starting counter, in order |
| `McpClient.IssuedAsWrittenAreConsecutive` | mcp_client_demo.py:160-162 | as written, the ids handed out are the consecutive numbers after the starting counter, in order |
| `McpClient.IdsStartAtOne` | mcp_client_demo.py:31 | from a fresh client the ids are 1, 2, 3, ...: strictly increasing and never reused, both with the corrected send and as written |
| `McpClient.ReplyNamesRequest` | mcp_client_demo.py:140-142 | under `InvAsWritten`, which every client of both machines keeps, a successful `send_request` returns a reply whose `str(reply_to)` is `str(msg_id)` of the request |
| `McpClient.CloseWakesEveryWaiter` | mcp_client_demo.py:54-56 | under `InvAsWritten`, which every client of both machines keeps, every waiting call has its entry, and after `close()` it completes at once, without waiting for its deadline; a call whose future was pending raises "Client closed", and one whose future was done gets that outcome |
| `McpClient.ClosedRefusesRequests` | mcp_client_demo.py:63-64 | after `close()` every request is refused with the state unchanged |
| `McpClient.TimeoutRemovesEntry` | mcp_client_demo.py:78-82 | a timed-out request raises Timeout and its entry is gone from the registry |
| `McpClient.AsWrittenWriteFailureLeaksEntry` | mcp_client_demo.py:76-82 | as written, a failed write leaves a pending entry that no call waits on, breaking the invariant |

## Left out

- asyncio itself: tasks, cancellation, `wait_for`, `sleep` and the heartbeat interval. The event machine (`Step`, `Run`) accepts its events in any order, but some stretches of code are single events although they contain an `await`:
  - `send_request`'s `await self._write_message(...)` (line 76) is one step with the registration before it. A reply, a `close()` or the reader loop's end that runs during `drain()` is not interleaved there.
  - `connect()` (lines 34-39) is one step. Two calls that both suspend in it each open a connection and start tasks; in the model the second `Connect` changes nothing.
  - `Close` is one step. In the code, the reader task's cancellation can fail pending futures with "Connection lost" during `close()`'s `await wait_closed()`. That schedule is covered by `ReaderStopped` followed by `Closing`.
  The suspension in `send_request`'s `await self.connect()` (line 66) is modelled: `ConnectSuspended` and `ConnectResumed`.
- Socket I/O: `open_connection`, `write`, `drain`, `wait_closed` and `at_eof`. The transport is a byte sequence. Success or failure of connect and write is an argument. `at_eof()` is "no bytes left". `ConnectionResetError` during a read is a short read.
- `connect()`'s early return when the reader is live and not at EOF is folded into `Connect`. A successful connect sets the writer; a failed one changes nothing. Host, port, timeouts and the new background tasks are not modelled.
- The `ConnectionError("Not connected")` guard in `_write_message` (lines 85-86) is unreachable from `send_request`, which connects first (lines 65-66), so it has no counterpart.
- JSON text: `json.dumps` and `json.loads` are the abstract `serialize` and `parse`. A UTF-8 decode error raises out of `_read_message` instead of returning `None`. The reader loop's `except Exception` then ends the loop exactly as `None` does, so `parse` returns `None` for both.
- Messages.Json: no floating-point numbers. No message that contains a float anywhere, such as the payload `{"x": 1.5}` or a reply `{"reply_to": 1, "v": 0.5}`, can be represented. So `Resolved(msg)` and `Reply(msg)` never hold such a dict, and no property here speaks about one. A float `reply_to` has a `str()` containing `.`, `e`, `inf` or `nan`, so it would never match a registry key.
- Messages.StrForm: `str()` of a JSON array or object is not computed. Such a `reply_to` is treated as unmatched. Its `str()` begins with `[` or `{`, and every registry key is a decimal numeral.
- Dict key order: Python dicts keep insertion order, but maps here do not. Order only affects the bytes of the serialized JSON, which are abstract.
- The `print` of notifications becomes the `notifications` sequence of `ReaderLoop`. In the event machine it is dropped.
- `main()` and `langchain_mcp.client.py`: demo output and configuration of external agent libraries, with no protocol logic.

## Findings

| source | as written | input that shows it | evidently intended | confidence | as-written member | corrected member |
|---|---|---|---|---|---|---|
| mcp_client_demo.py:73-82 | the frame is written (line 76) before the `try` whose `finally` pops the entry, so an exception from `_write_message` leaves the pending entry in `_response_futures` for good | a `drain()` that raises `ConnectionResetError`, or a body of 2^32 bytes or more, so that `struct.pack` raises | the entry is popped on every exit from `send_request`, as the `finally` is meant to ensure | medium, not executed | `McpClient.AsWrittenWriteFailureLeaksEntry` | `McpClient.Allocate` |
| mcp_client_demo.py:63-74 | `_closed` is checked (line 63) before `await self.connect()` (line 66) and not again afterwards, so a `close()` that runs while the call awaits the connect does not stop it; the call then registers a request on the closed client, and the connection and reader task that this connect opens are never closed; only the heartbeat task it starts ends at once, since `while not self._closed` (line 150) is already false | a fresh client: `send_request(p)` suspends in `connect()`, `close()` runs to completion and finds nothing to fail, the connect succeeds and request 1 is registered and written after `close()` returned | a closed client refuses every request, and after `close()` no future is pending | medium, not executed | `McpClient.AsWrittenCloseDuringConnectRegisters` | `McpClient.CloseSettlesForGood` |

=== FILE: client.dfy ===
/**
 * The sequential protocol logic of `MCPClient`, apart from its asyncio
 * plumbing. Each `async` operation becomes a pure function from the
 * client's state to the next state; the outcome of I/O (did the connection
 * open, did the write go through, did the deadline pass) is an argument.
 * `send_request` is split at two of its three suspensions: the connect
 * (`ConnectSuspended`, then `ResumeAfterConnect`) and the wait for the
 * reply (`StartRequest` runs up to it and `AwaitReply` runs from it). The
 * write in between stays one step with the registration before it.
 */
module McpClient {
  import opened Common
  import opened Messages
  import opened Framing
  import opened Registry

  /** The registry key of a request: `str(msg_id)`. */
  function Key(id: int): string {
    IntString(id)
  }

  /** The state of one `MCPClient` that the protocol logic reads and writes. */
  datatype Client = Client(
    counter: nat,       // `_msg_id_counter`: the last id handed out
    futures: Futures,   // `_response_futures`
    closed: bool,       // `_closed`
    connected: bool,    // `_writer is not None`
    waiting: set<nat>,  // ids of the `send_request` calls suspended in `wait_for`
    connecting: nat)    // `send_request` calls suspended in `await self.connect()`

  /** A freshly constructed client. */
  function Init(): Client {
    Client(0, map[], false, false, {}, 0)
  }

  /** The exceptions `send_request` can raise. */
  datatype Error =
    | ClientIsClosed            // `ConnectionError("Client is closed")`
    | ConnectFailed             // `connect()` timed out or could not open the connection
    | WriteFailed               // `struct.pack`, `write` or `drain` raised in `_write_message`
    | Timeout                   // `wait_for` ran out of time
    | SlotFailed(reason: Reason) // the awaited future was failed by `close()` or the reader loop

  /** `_next_msg_id`: the counter moves on by one and its new value is the id. */
  function NextMsgId(c: Client): (r: (Client, nat))
    ensures r.1 == c.counter + 1 && r.1 > c.counter
    ensures r.0.counter == r.1
    ensures r.0 == c.(counter := r.1)
  {
    var id := c.counter + 1;
    (c.(counter := id), id)
  }

  /** `send_request` up to its wait: refused, or the request's frame is on the wire. */
  datatype Start =
    | Rejected(client: Client, error: Error)
    | Sent(client: Client, id: nat, frame: seq<byte>)

  /**
   * The part of `send_request` after the connection exists, as written: take
   * a fresh id, build the message, register its future, write the frame.
   * The write (mcp_client_demo.py:76) comes before the `try` whose `finally`
   * pops the entry, so when the write raises the pending entry stays behind.
   */
  function AllocateAsWritten(c: Client, payload: Object, writeOk: bool,
                             serialize: Object -> seq<byte>): (r: Start)
    ensures r.Rejected? ==>
              && r.error == WriteFailed
              && r.client == c.(counter := c.counter + 1, futures := c.futures[Key(c.counter + 1) := Pending])
    ensures r.Sent? ==>
              && r.id == c.counter + 1
              && r.client == c.(counter := r.id, futures := c.futures[Key(r.id) := Pending],
                                waiting := c.waiting + {r.id})
              && |r.frame| >= PREFIX_LEN
              && UnpackLength(r.frame[..PREFIX_LEN]) == |r.frame| - PREFIX_LEN
              && r.frame[PREFIX_LEN..] == serialize(BuildRequest(payload, r.id))
    ensures r.Sent? <==> writeOk && |serialize(BuildRequest(payload, c.counter + 1))| < FRAME_LIMIT
  {
    var (numbered, id) := NextMsgId(c);
    var registered := numbered.(futures := c.futures[Key(id) := Pending]);
    match EncodeFrame(serialize(BuildRequest(payload, id)))
    case Some(frame) =>
      if writeOk then Sent(registered.(waiting := c.waiting + {id}), id, frame)
      else Rejected(registered, WriteFailed)
    case None => Rejected(registered, WriteFailed)
  }

  /**
   * The same part with the write inside the `try`, so that its `finally`
   * pops the entry on every exit.
   */
  function Allocate(c: Client, payload: Object, writeOk: bool,
                    serialize: Object -> seq<byte>): (r: Start)
    ensures r.Rejected? ==>
              && r.error == WriteFailed
              && r.client == c.(counter := c.counter + 1, futures := c.futures - {Key(c.counter + 1)})
    ensures r.Sent? ==>
              && r.id == c.counter + 1
              && r.client == c.(counter := r.id, futures := c.futures[Key(r.id) := Pending],
                                waiting := c.waiting + {r.id})
    ensures r.Sent? ==>
              && |r.frame| >= PREFIX_LEN
              && UnpackLength(r.frame[..PREFIX_LEN]) == |r.frame| - PREFIX_LEN
              && r.frame[PREFIX_LEN..] == serialize(BuildRequest(payload, r.id))
    ensures r.Sent? <==> writeOk && |serialize(BuildRequest(payload, c.counter + 1))| < FRAME_LIMIT
  {
    var (numbered, id) := NextMsgId(c);
    var frame := EncodeFrame(serialize(BuildRequest(payload, id)));
    if frame.Some? && writeOk then
      Sent(numbered.(futures := c.futures[Key(id) := Pending], waiting := c.waiting + {id}), id, frame.value)
    else
      // the `finally` pops the entry registered just before the write
      Rejected(numbered.(futures := c.futures[Key(id) := Pending] - {Key(id)}), WriteFailed)
  }

  /** The two versions differ only in what a failed write leaves in the registry. */
  lemma AsWrittenAgreesExceptOnWriteFailure(c: Client, payload: Object, writeOk: bool,
                                            serialize: Object -> seq<byte>)
    ensures var fixed := Allocate(c, payload, writeOk, serialize);
            var asWritten := AllocateAsWritten(c, payload, writeOk, serialize);
            if fixed.Rejected?
            then asWritten == Rejected(fixed.client.(futures := c.futures[Key(c.counter + 1) := Pending]), WriteFailed)
            else asWritten == fixed
  {
  }

  /**
   * `send_request` up to its wait when nothing else runs while it connects:
   * a closed client refuses before an id is allocated, and so does a failed
   * connect; otherwise the request is allocated as in `Allocate`.
   */
  function StartRequest(c: Client, payload: Object, connectOk: bool, writeOk: bool,
                        serialize: Object -> seq<byte>): (r: Start)
    ensures r.client.closed == c.closed
    ensures c.closed ==> r == Rejected(c, ClientIsClosed)
    ensures !c.closed && !c.connected && !connectOk ==> r == Rejected(c, ConnectFailed)
    ensures !c.closed && (c.connected || connectOk) && r.Rejected? ==> r.error == WriteFailed
    ensures r.Rejected? ==> r.error in {ClientIsClosed, ConnectFailed, WriteFailed}
    ensures r.Rejected? && r.error != WriteFailed ==> r.client == c
    ensures r.Rejected? && r.error == WriteFailed ==>
              r.client == c.(counter := c.counter + 1, connected := true,
                             futures := c.futures - {Key(c.counter + 1)})
    ensures r.Sent? ==>
              && r.id == c.counter + 1
              && r.client == c.(counter := r.id, connected := true,
                                futures := c.futures[Key(r.id) := Pending],
                                waiting := c.waiting + {r.id})
    ensures r.Sent? ==>
              && |r.frame| >= PREFIX_LEN
              && UnpackLength(r.frame[..PREFIX_LEN]) == |r.frame| - PREFIX_LEN
              && r.frame[PREFIX_LEN..] == serialize(BuildRequest(payload, r.id))
    ensures r.Sent? <==> !c.closed && (c.connected || connectOk) && writeOk
                         && |serialize(BuildRequest(payload, c.counter + 1))| < FRAME_LIMIT
  {
    if c.closed then Rejected(c, ClientIsClosed)
    else if !c.connected && !connectOk then Rejected(c, ConnectFailed)
    else Allocate(c.(connected := true), payload, writeOk, serialize)
  }

  /** `send_request` up to its wait, as written. */
  function StartRequestAsWritten(c: Client, payload: Object, connectOk: bool, writeOk: bool,
                                 serialize: Object -> seq<byte>): (r: Start)
    ensures c.closed ==> r == Rejected(c, ClientIsClosed)
    ensures !c.closed && !c.connected && !connectOk ==> r == Rejected(c, ConnectFailed)
    ensures !c.closed && (c.connected || connectOk) && r.Rejected? ==> r.error == WriteFailed
    ensures r.Rejected? && r.error == WriteFailed ==>
              r.client == c.(counter := c.counter + 1, connected := true,
                             futures := c.futures[Key(c.counter + 1) := Pending])
    ensures r.Sent? ==>
              && r.id == c.counter + 1
              && r.client == c.(counter := r.id, connected := true,
                                futures := c.futures[Key(r.id) := Pending],
                                waiting := c.waiting + {r.id})
              && |r.frame| >= PREFIX_LEN
              && UnpackLength(r.frame[..PREFIX_LEN]) == |r.frame| - PREFIX_LEN
              && r.frame[PREFIX_LEN..] == serialize(BuildRequest(payload, r.id))
    ensures r.Sent? <==> !c.closed && (c.connected || connectOk) && writeOk
                         && |serialize(BuildRequest(payload, c.counter + 1))| < FRAME_LIMIT
  {
    if c.closed then Rejected(c, ClientIsClosed)
    else if !c.connected && !connectOk then Rejected(c, ConnectFailed)
    else AllocateAsWritten(c.(connected := true), payload, writeOk, serialize)
  }

  /**
   * A `send_request` that passed the `_closed` check (line 63) and then
   * suspended in `await self.connect()` (line 66) resumes, as written: it
   * does not look at `_closed` again, so a `close()` that ran during the
   * connect does not stop it from registering a request. The payload is
   * first read after the connect (line 69), so it is an argument here.
   */
  function ResumeAfterConnectAsWritten(c: Client, payload: Object, connectOk: bool, writeOk: bool,
                                       serialize: Object -> seq<byte>): (r: Start)
    ensures !connectOk ==> r == Rejected(c, ConnectFailed)
    ensures r.client.closed == c.closed
    ensures r.Sent? <==> connectOk && writeOk && |serialize(BuildRequest(payload, c.counter + 1))| < FRAME_LIMIT
    ensures r.Sent? ==>
              && r.id == c.counter + 1
              && r.client == c.(counter := r.id, connected := true,
                                futures := c.futures[Key(r.id) := Pending],
                                waiting := c.waiting + {r.id})
              && |r.frame| >= PREFIX_LEN
              && UnpackLength(r.frame[..PREFIX_LEN]) == |r.frame| - PREFIX_LEN
              && r.frame[PREFIX_LEN..] == serialize(BuildRequest(payload, r.id))
    ensures r.Rejected? && connectOk ==>
              && r.error == WriteFailed
              && r.client == c.(counter := c.counter + 1, connected := true,
                                futures := c.futures[Key(c.counter + 1) := Pending])
  {
    if !connectOk then Rejected(c, ConnectFailed)
    else AllocateAsWritten(c.(connected := true), payload, writeOk, serialize)
  }

  /**
   * The same resumption with `_closed` checked again once the connect
   * returns: a client closed in the meantime refuses, before an id is
   * allocated.
   */
  function ResumeAfterConnect(c: Client, payload: Object, connectOk: bool, writeOk: bool,
                              serialize: Object -> seq<byte>): (r: Start)
    ensures !connectOk ==> r == Rejected(c, ConnectFailed)
    ensures connectOk && c.closed ==> r == Rejected(c.(connected := true), ClientIsClosed)
    ensures connectOk && !c.closed && r.Rejected? ==> r.error == WriteFailed
    ensures r.client.closed == c.closed
    ensures r.Sent? <==> connectOk && !c.closed && writeOk
                         && |serialize(BuildRequest(payload, c.counter + 1))| < FRAME_LIMIT
    ensures r.Sent? ==>
              && r.id == c.counter + 1
              && r.client == c.(counter := r.id, connected := true,
                                futures := c.futures[Key(r.id) := Pending],
                                waiting := c.waiting + {r.id})
              && |r.frame| >= PREFIX_LEN
              && UnpackLength(r.frame[..PREFIX_LEN]) == |r.frame| - PREFIX_LEN
              && r.frame[PREFIX_LEN..] == serialize(BuildRequest(payload, r.id))
    ensures r.Rejected? && r.error == WriteFailed ==>
              r.client == c.(counter := c.counter + 1, connected := true,
                             futures := c.futures - {Key(c.counter + 1)})
    ensures r.Rejected? ==> r.error in {ConnectFailed, ClientIsClosed, WriteFailed}
    ensures r.Rejected? && r.error != WriteFailed ==>
              r.client == c || r.client == c.(connected := true)
  {
    if !connectOk then Rejected(c, ConnectFailed)
    else if c.closed then Rejected(c.(connected := true), ClientIsClosed)
    else Allocate(c.(connected := true), payload, writeOk, serialize)
  }

  /**
   * `send_request` as written is the fixed one except after a failed
   * write, where its registry still holds the fresh id's pending entry.
   */
  lemma StartAsWrittenAgrees(c: Client, payload: Object, connectOk: bool, writeOk: bool,
                             serialize: Object -> seq<byte>)
    ensures var fixed := StartRequest(c, payload, connectOk, writeOk, serialize);
            var asWritten := StartRequestAsWritten(c, payload, connectOk, writeOk, serialize);
            if fixed.Rejected? && fixed.error == WriteFailed
            then asWritten == Rejected(fixed.client.(futures := c.futures[Key(c.counter + 1) := Pending]), WriteFailed)
            else asWritten == fixed
  {
    if !c.closed && (c.connected || connectOk) {
      var d := c.(connected := true);
      AsWrittenAgreesExceptOnWriteFailure(d, payload, writeOk, serialize);
      assert StartRequest(c, payload, connectOk, writeOk, serialize) == Allocate(d, payload, writeOk, serialize);
      assert StartRequestAsWritten(c, payload, connectOk, writeOk, serialize)
             == AllocateAsWritten(d, payload, writeOk, serialize);
    }
  }

  /**
   * On a client still open, the resumption as written is the fixed one
   * except after a failed write; on a closed one they part ways, which is
   * `AsWrittenCloseDuringConnectRegisters`.
   */
  lemma ResumeAsWrittenAgrees(c: Client, payload: Object, connectOk: bool, writeOk: bool,
                              serialize: Object -> seq<byte>)
    requires !c.closed
    ensures var fixed := ResumeAfterConnect(c, payload, connectOk, writeOk, serialize);
            var asWritten := ResumeAfterConnectAsWritten(c, payload, connectOk, writeOk, serialize);
            if fixed.Rejected? && fixed.error == WriteFailed
            then asWritten == Rejected(fixed.client.(futures := c.futures[Key(c.counter + 1) := Pending]), WriteFailed)
            else asWritten == fixed
  {
    if connectOk {
      var d := c.(connected := true);
      AsWrittenAgreesExceptOnWriteFailure(d, payload, writeOk, serialize);
      assert ResumeAfterConnect(c, payload, connectOk, writeOk, serialize) == Allocate(d, payload, writeOk, serialize);
      assert ResumeAfterConnectAsWritten(c, payload, connectOk, writeOk, serialize)
             == AllocateAsWritten(d, payload, writeOk, serialize);
    }
  }

  /** How a suspended `send_request` ends: the reply, or an exception. */
  datatype Outcome = Reply(msg: Json) | Raised(error: Error)

  datatype Wake = StillWaiting | Woke(client: Client, outcome: Outcome)

  /**
   * `send_request` from its wait on: once the future is done, or the
   * deadline has passed, the call returns the reply or raises, and its
   * `finally` pops its entry. A future completed in time wins over the
   * deadline.
   */
  function AwaitReply(c: Client, id: nat, timedOut: bool): (r: Wake)
    ensures r.Woke? <==>
              id in c.waiting && Key(id) in c.futures && (c.futures[Key(id)].Done() || timedOut)
    ensures r.Woke? ==>
              && r.client == c.(futures := c.futures - {Key(id)}, waiting := c.waiting - {id})
    ensures r.Woke? && r.outcome.Reply? ==> c.futures[Key(id)] == Resolved(r.outcome.msg)
    ensures r.Woke? && r.outcome.Raised? ==>
              (r.outcome.error.SlotFailed? && c.futures[Key(id)] == Failed(r.outcome.error.reason))
              || (c.futures[Key(id)].Pending? && r.outcome.error == Timeout)
  {
    var key := Key(id);
    if id !in c.waiting || key !in c.futures then StillWaiting
    else
      var finished := c.(futures := c.futures - {key}, waiting := c.waiting - {id});
      match c.futures[key]
      case Resolved(msg) => Woke(finished, Reply(msg))
      case Failed(reason) => Woke(finished, Raised(SlotFailed(reason)))
      case Pending => if timedOut then Woke(finished, Raised(Timeout)) else StillWaiting
  }

  /**
   * `close()`: the client is closed for good and every outstanding future
   * fails with "Client closed". The registry keeps its entries: each is
   * popped by its own sender.
   */
  function Close(c: Client): (r: Client)
    ensures r.closed
    ensures r.counter == c.counter && r.waiting == c.waiting
    ensures r.connected == c.connected && r.connecting == c.connecting
    ensures r.futures.Keys == c.futures.Keys
    ensures forall k :: k in r.futures ==> r.futures[k].Done()
    ensures forall k :: k in c.futures && c.futures[k].Done() ==> r.futures[k] == c.futures[k]
    ensures forall k :: k in c.futures && c.futures[k].Pending? ==> r.futures[k] == Failed(ClientClosed)
  {
    FailPendingLeavesNothingPending(c.futures, ClientClosed);
    c.(closed := true, futures := FailPending(c.futures, ClientClosed))
  }

  /** The `finally` of `_reader_loop`: outstanding futures fail with "Connection lost". */
  function LoseConnection(c: Client): (r: Client)
    ensures r.closed == c.closed && r.counter == c.counter && r.waiting == c.waiting
    ensures r.connected == c.connected && r.connecting == c.connecting
    ensures r.futures.Keys == c.futures.Keys
    ensures forall k :: k in r.futures ==> r.futures[k].Done()
    ensures forall k :: k in c.futures && c.futures[k].Done() ==> r.futures[k] == c.futures[k]
    ensures forall k :: k in c.futures && c.futures[k].Pending? ==> r.futures[k] == Failed(ConnectionLost)
  {
    FailPendingLeavesNothingPending(c.futures, ConnectionLost);
    c.(futures := FailPending(c.futures, ConnectionLost))
  }

  /**
   * One pass of the reader loop's body for a message that was read:
   * `_handle_message`. A message that is not a JSON object makes `msg.get`
   * raise, which ends the loop and runs its `finally`.
   */
  function Receive(c: Client, msg: Json): (r: Client)
    ensures r.closed == c.closed && r.counter == c.counter && r.waiting == c.waiting
    ensures r.connected == c.connected && r.connecting == c.connecting
    ensures r.futures.Keys == c.futures.Keys
    ensures forall k :: k in c.futures && c.futures[k].Done() ==> r.futures[k] == c.futures[k]
    ensures !msg.JObject? ==> forall k :: k in r.futures ==> r.futures[k].Done()
    ensures !msg.JObject? ==>
              forall k :: k in c.futures && c.futures[k].Pending? ==> r.futures[k] == Failed(ConnectionLost)
    ensures msg.JObject? && r.futures != c.futures ==>
              && ReplyKey(msg).Some?
              && ReplyKey(msg).value in c.futures
              && c.futures[ReplyKey(msg).value].Pending?
              && r.futures == c.futures[ReplyKey(msg).value := Resolved(msg)]
    ensures msg.JObject? && ReplyKey(msg).Some? && ReplyKey(msg).value in c.futures
            && c.futures[ReplyKey(msg).value].Pending? ==>
              r.futures[ReplyKey(msg).value] == Resolved(msg)
  {
    match HandleMessage(c.futures, msg)
    case Delivered(f) => c.(futures := f)
    case Notified => c
    case NotAnObject => LoseConnection(c)
  }

  /** `connect()`: on success the client has a writer (and its two background tasks). */
  function Connect(c: Client, ok: bool): (r: Client)
    ensures r.connected == (c.connected || ok)
    ensures r.(connected := c.connected) == c
  {
    if ok then c.(connected := true) else c
  }

  const HEARTBEAT_PAYLOAD: Object := map[TYPE_FIELD := JStr("heartbeat")]

  /**
   * One round of `_heartbeat_loop`: while not closed, a
   * `send_request({"type": "heartbeat"})` whose failure is swallowed.
   */
  function HeartbeatTick(c: Client, connectOk: bool, writeOk: bool, serialize: Object -> seq<byte>): (r: Client)
    ensures c.closed ==> r == c
    ensures r.closed == c.closed
  {
    if c.closed then c else StartRequest(c, HEARTBEAT_PAYLOAD, connectOk, writeOk, serialize).client
  }

  /** A heartbeat is an ordinary request whose outcome is dropped. */
  lemma HeartbeatIsRequest(c: Client, connectOk: bool, writeOk: bool, serialize: Object -> seq<byte>)
    ensures HeartbeatTick(c, connectOk, writeOk, serialize)
            == StartRequest(c, HEARTBEAT_PAYLOAD, connectOk, writeOk, serialize).client
    ensures var r := StartRequest(c, HEARTBEAT_PAYLOAD, connectOk, writeOk, serialize);
            r.Sent? ==> r.frame[PREFIX_LEN..] == serialize(map[TYPE_FIELD := JStr("heartbeat"), MSG_ID_FIELD := JInt(r.id)])
  {
  }

  // ---------------------------------------------------------------------
  // The reader loop over a whole byte stream
  // ---------------------------------------------------------------------

  datatype LoopResult = LoopResult(futures: Futures, notifications: seq<Json>)

  /**
   * `_reader_loop` run over the bytes the connection delivers: read frames
   * and dispatch them until the stream is exhausted or a read yields `None`
   * (or a message is not an object), then fail every outstanding future.
   * Unmatched messages go, in order, to the notification sink.
   */
  function ReaderLoop(f: Futures, s: seq<byte>, parse: seq<byte> -> Option<Json>): (r: LoopResult)
    ensures r.futures.Keys == f.Keys
    ensures forall k :: k in r.futures ==> r.futures[k].Done()
    ensures forall k :: k in f && f[k].Done() ==> r.futures[k] == f[k]
    ensures forall k :: k in f && f[k].Pending? ==>
              r.futures[k] == Failed(ConnectionLost) || r.futures[k].Resolved?
    decreases |s|
  {
    if |s| == 0 then
      LoopResult(FailPending(f, ConnectionLost), [])
    else
      match ReadMessage(s, parse)
      case None => LoopResult(FailPending(f, ConnectionLost), [])
      case Some((msg, rest)) =>
        match HandleMessage(f, msg)
        case NotAnObject => LoopResult(FailPending(f, ConnectionLost), [])
        case Delivered(f') => ReaderLoop(f', rest, parse)
        case Notified =>
          var r := ReaderLoop(f, rest, parse);
          LoopResult(r.futures, [msg] + r.notifications)
  }

  /**
   * The loop stops at a frame whose body does not parse: nothing after it
   * is dispatched, and every outstanding future fails with "Connection lost".
   */
  lemma ReaderLoopStopsAtUnparsableFrame(f: Futures, body: seq<byte>, tail: seq<byte>,
                                         parse: seq<byte> -> Option<Json>)
    requires |body| < FRAME_LIMIT
    requires parse(body) == None || parse(body) == Some(JNull)
    ensures EncodeFrame(body).Some?
    ensures ReaderLoop(f, EncodeFrame(body).value + tail, parse)
            == LoopResult(FailPending(f, ConnectionLost), [])
  {
    UnparsableFrame(body, tail, parse);
  }

  /** A zero length prefix ends the loop the same way, whatever follows. */
  lemma ReaderLoopStopsAtZeroLength(f: Futures, tail: seq<byte>, parse: seq<byte> -> Option<Json>)
    ensures ReaderLoop(f, [0, 0, 0, 0] + tail, parse) == LoopResult(FailPending(f, ConnectionLost), [])
  {
  }

  /** So does a length prefix promising more bytes than the stream still holds. */
  lemma ReaderLoopStopsAtShortFrame(f: Futures, s: seq<byte>, parse: seq<byte> -> Option<Json>)
    requires |s| >= PREFIX_LEN && UnpackLength(s[..PREFIX_LEN]) > |s| - PREFIX_LEN
    ensures ReaderLoop(f, s, parse) == LoopResult(FailPending(f, ConnectionLost), [])
  {
  }

  /**
   * A well-formed frame carrying an object is dispatched, and the loop
   * carries on with exactly the bytes after it.
   */
  lemma ReaderLoopDispatchesFrame(f: Futures, body: seq<byte>, rest: seq<byte>,
                                  parse: seq<byte> -> Option<Json>, fields: Object)
    requires 0 < |body| < FRAME_LIMIT
    requires parse(body) == Some(JObject(fields))
    ensures EncodeFrame(body).Some?
    ensures var r := ReaderLoop(f, EncodeFrame(body).value + rest, parse);
            match HandleMessage(f, JObject(fields))
            case Delivered(f') => r == ReaderLoop(f', rest, parse)
            case Notified => r.futures == ReaderLoop(f, rest, parse).futures
                             && r.notifications == [JObject(fields)] + ReaderLoop(f, rest, parse).notifications
            case NotAnObject => false
  {
    FrameRoundTrip(body, rest, parse, JObject(fields));
  }

  // ---------------------------------------------------------------------
  // The client as a state machine over arbitrary interleavings
  // ---------------------------------------------------------------------

  /** Everything that can happen to a client, in any order the event loop allows. */
  datatype Event =
    | Connecting(ok: bool)                                   // a `connect()` call
    | Requested(payload: Object, connectOk: bool, writeOk: bool) // a `send_request` call runs up to its wait
    | ConnectSuspended                                       // a `send_request` finds no writer and awaits `connect()`
    | ConnectResumed(payload: Object, connectOk: bool, writeOk: bool) // such a call resumes and runs up to its wait
    | HeartbeatDue(connectOk: bool, writeOk: bool)           // the heartbeat loop wakes up
    | Received(msg: Json)                                    // the reader loop read a message
    | ReaderStopped                                          // the reader loop ended
    | Resumed(id: nat, timedOut: bool)                       // a waiting `send_request` is scheduled
    | Closing                                                // a `close()` call

  /**
   * A `send_request` that passed the `_closed` check with no writer
   * suspends in `connect()`; any other call would not, and its event
   * changes nothing.
   */
  function Suspend(c: Client): (r: Client)
    ensures !c.closed && !c.connected ==> r.connecting == c.connecting + 1
    ensures c.closed || c.connected ==> r == c
    ensures r.(connecting := c.connecting) == c
  {
    if !c.closed && !c.connected then c.(connecting := c.connecting + 1) else c
  }

  /**
   * The events both versions of `send_request` handle alike: everything
   * but the three that allocate a request id, which leave the client as it
   * is here and are handled by `Step` and `StepAsWritten`.
   */
  function SharedStep(c: Client, e: Event): Client {
    match e
    case Connecting(ok) => Connect(c, ok)
    case ConnectSuspended => Suspend(c)
    case Received(msg) => Receive(c, msg)
    case ReaderStopped => LoseConnection(c)
    case Resumed(id, timedOut) =>
      (match AwaitReply(c, id, timedOut)
       case StillWaiting => c
       case Woke(c', _) => c')
    case Closing => Close(c)
    case _ => c
  }

  /** One event, with the `send_request` that re-checks `_closed` after its connect. */
  function Step(c: Client, e: Event, serialize: Object -> seq<byte>): Client {
    match e
    case Requested(payload, connectOk, writeOk) => StartRequest(c, payload, connectOk, writeOk, serialize).client
    case ConnectResumed(payload, connectOk, writeOk) =>
      if c.connecting == 0 then c
      else ResumeAfterConnect(c.(connecting := c.connecting - 1), payload, connectOk, writeOk, serialize).client
    case HeartbeatDue(connectOk, writeOk) => HeartbeatTick(c, connectOk, writeOk, serialize)
    case _ => SharedStep(c, e)
  }

  function Run(c: Client, es: seq<Event>, serialize: Object -> seq<byte>): Client
    decreases |es|
  {
    if |es| == 0 then c else Run(Step(c, es[0], serialize), es[1..], serialize)
  }

  /** One event, with `send_request` as written: the write before the `try`, no second `_closed` check. */
  function StepAsWritten(c: Client, e: Event, serialize: Object -> seq<byte>): Client {
    match e
    case Requested(payload, connectOk, writeOk) =>
      StartRequestAsWritten(c, payload, connectOk, writeOk, serialize).client
    case ConnectResumed(payload, connectOk, writeOk) =>
      if c.connecting == 0 then c
      else ResumeAfterConnectAsWritten(c.(connecting := c.connecting - 1), payload, connectOk, writeOk, serialize).client
    case HeartbeatDue(connectOk, writeOk) =>
      if c.closed then c else StartRequestAsWritten(c, HEARTBEAT_PAYLOAD, connectOk, writeOk, serialize).client
    case _ => SharedStep(c, e)
  }

  function RunAsWritten(c: Client, es: seq<Event>, serialize: Object -> seq<byte>): Client
    decreases |es|
  {
    if |es| == 0 then c else RunAsWritten(StepAsWritten(c, es[0], serialize), es[1..], serialize)
  }

  /** The ids `_next_msg_id` hands out while the events run, in order. */
  function Issued(c: Client, es: seq<Event>, serialize: Object -> seq<byte>): seq<nat>
    decreases |es|
  {
    if |es| == 0 then []
    else
      var c' := Step(c, es[0], serialize);
      (if c'.counter != c.counter then [c'.counter] else []) + Issued(c', es[1..], serialize)
  }

  /** The ids `_next_msg_id` hands out while the events run in the code as written. */
  function IssuedAsWritten(c: Client, es: seq<Event>, serialize: Object -> seq<byte>): seq<nat>
    decreases |es|
  {
    if |es| == 0 then []
    else
      var c' := StepAsWritten(c, es[0], serialize);
      (if c'.counter != c.counter then [c'.counter] else []) + IssuedAsWritten(c', es[1..], serialize)
  }

  function KeysOf(ids: set<nat>): set<string> {
    set id | id in ids :: Key(id)
  }

  /**
   * What holds of every reachable client: the registry has exactly one
   * entry per waiting call, keyed by its id; every such id was handed out;
   * and a resolved entry holds a reply naming its own key.
   */
  predicate Inv(c: Client) {
    && (forall id :: id in c.waiting ==> 1 <= id <= c.counter)
    && c.futures.Keys == KeysOf(c.waiting)
    && (forall k :: k in c.futures && c.futures[k].Resolved? ==> ReplyKey(c.futures[k].msg) == Some(k))
  }

  /** A closed client has no future left pending. */
  predicate Settled(c: Client) {
    c.closed ==> forall k :: k in c.futures ==> c.futures[k].Done()
  }

  /** The keys of the ids handed out so far: `"1"` up to the counter's numeral. */
  function IssuedKeys(n: nat): set<string> {
    set id: nat | 1 <= id <= n :: Key(id)
  }

  /**
   * What holds of every client the code as written reaches: every registry
   * key belongs to an id already handed out. Entries of failed writes stay,
   * so the registry can hold more than the waiting calls.
   */
  predicate WeakInv(c: Client) {
    c.futures.Keys <= IssuedKeys(c.counter)
  }

  /**
   * What every step guarantees, in both machines: the counter stays or
   * moves on by one; the only key that can appear is the next id's, and
   * only when that id is handed out; every other done entry keeps its
   * outcome; and a closed client stays closed.
   */
  predicate Moves(c: Client, c': Client) {
    && (c'.counter == c.counter || c'.counter == c.counter + 1)
    && c'.futures.Keys <= c.futures.Keys + {Key(c.counter + 1)}
    && (c'.counter == c.counter ==> c'.futures.Keys <= c.futures.Keys)
    && (forall k :: k in c.futures && c.futures[k].Done() && k != Key(c.counter + 1) && k in c'.futures ==>
          c'.futures[k] == c.futures[k])
    && (c.closed ==> c'.closed)
  }

  /**
   * The rest of `Inv` that survives the code as written: every waiting call
   * still has its entry, every waiting id was handed out, and a resolved
   * entry holds a reply naming its own key. Only the converse, that every
   * entry has a waiting call, is lost after a failed write.
   */
  predicate InvAsWritten(c: Client) {
    && WeakInv(c)
    && (forall id :: id in c.waiting ==> 1 <= id <= c.counter)
    && KeysOf(c.waiting) <= c.futures.Keys
    && (forall k :: k in c.futures && c.futures[k].Resolved? ==> ReplyKey(c.futures[k].msg) == Some(k))
  }

  /**
   * The messages `_reader_loop` reads before it stops, in order. The last
   * one may be a message that is not an object, which ends the loop.
   */
  function DecodeStream(s: seq<byte>, parse: seq<byte> -> Option<Json>): (msgs: seq<Json>)
    ensures forall i :: 0 <= i < |msgs| - 1 ==> msgs[i].JObject?
    decreases |s|
  {
    if |s| == 0 then []
    else
      match ReadMessage(s, parse)
      case None => []
      case Some((msg, rest)) => if msg.JObject? then [msg] + DecodeStream(rest, parse) else [msg]
  }

  function Deliveries(msgs: seq<Json>): (es: seq<Event>)
    ensures |es| == |msgs|
    ensures forall i :: 0 <= i < |msgs| ==> es[i] == Received(msgs[i])
  {
    seq(|msgs|, i requires 0 <= i < |msgs| => Received(msgs[i]))
  }

  lemma RunCons(c: Client, e: Event, rest: seq<Event>, serialize: Object -> seq<byte>)
    ensures Run(c, [e] + rest, serialize) == Run(Step(c, e, serialize), rest, serialize)
  {
    assert ([e] + rest)[1..] == rest;
  }

  /** One step of the reader loop over an object message is one `Received` event. */
  lemma ReaderLoopStep(f: Futures, s: seq<byte>, parse: seq<byte> -> Option<Json>, msg: Json, rest: seq<byte>)
    requires |s| > 0 && ReadMessage(s, parse) == Some((msg, rest)) && msg.JObject?
    ensures HandleMessage(f, msg).Delivered? ==>
              ReaderLoop(f, s, parse).futures == ReaderLoop(HandleMessage(f, msg).futures, rest, parse).futures
    ensures HandleMessage(f, msg).Notified? ==>
              ReaderLoop(f, s, parse).futures == ReaderLoop(f, rest, parse).futures
  {
  }

  /**
   * The registry effect of dispatching a sequence of decoded messages in
   * order: replies resolve their entries, notifications change nothing, and
   * the first message that is not an object, or the end of the sequence,
   * fails every entry still pending with "Connection lost".
   */
  function DispatchStream(f: Futures, msgs: seq<Json>): (r: Futures)
    ensures r.Keys == f.Keys
    ensures forall k :: k in r ==> r[k].Done()
    decreases |msgs|
  {
    if |msgs| == 0 then FailPending(f, ConnectionLost)
    else
      match HandleMessage(f, msgs[0])
      case Delivered(g) => DispatchStream(g, msgs[1..])
      case Notified => DispatchStream(f, msgs[1..])
      case NotAnObject => FailPending(f, ConnectionLost)
  }

  /** The byte-level reader loop dispatches exactly the messages `DecodeStream` reads. */
  lemma {:induction false} ReaderLoopDispatches(f: Futures, s: seq<byte>, parse: seq<byte> -> Option<Json>)
    ensures ReaderLoop(f, s, parse).futures == DispatchStream(f, DecodeStream(s, parse))
    decreases |s|
  {
    if |s| > 0 && ReadMessage(s, parse).Some? {
      var (msg, rest) := ReadMessage(s, parse).value;
      var d := DecodeStream(s, parse);
      if msg.JObject? {
        assert d[0] == msg && d[1..] == DecodeStream(rest, parse);
        ReaderLoopStep(f, s, parse, msg, rest);
        match HandleMessage(f, msg)
        case Delivered(g) => ReaderLoopDispatches(g, rest, parse);
        case Notified => ReaderLoopDispatches(f, rest, parse);
        case NotAnObject =>
      } else {
        assert d == [msg];
      }
    }
  }

  /** A message that is not an object, then `ReaderStopped`: the registry is failed once, with "Connection lost". */
  lemma StopAtNonObject(c: Client, m: Json, serialize: Object -> seq<byte>)
    requires !m.JObject?
    ensures Run(Receive(c, m), [ReaderStopped], serialize).futures == FailPending(c.futures, ConnectionLost)
  {
    var c' := Receive(c, m);
    assert [ReaderStopped] == [ReaderStopped] + [];
    RunCons(c', ReaderStopped, [], serialize);
    FailPendingFirstWins(c.futures, ConnectionLost, ConnectionLost);
  }

  /**
   * Feeding the event machine one `Received` per message, then
   * `ReaderStopped`, has the registry effect of `DispatchStream`, for any
   * sequence in which only the last message may fail to be an object (the
   * shape `DecodeStream` produces).
   */
  lemma {:induction false} RunDeliveriesDispatches(c: Client, msgs: seq<Json>, serialize: Object -> seq<byte>)
    requires forall i :: 0 <= i < |msgs| - 1 ==> msgs[i].JObject?
    ensures Run(c, Deliveries(msgs) + [ReaderStopped], serialize).futures == DispatchStream(c.futures, msgs)
    decreases |msgs|
  {
    if |msgs| == 0 {
      assert Deliveries(msgs) + [ReaderStopped] == [ReaderStopped] + [];
      RunCons(c, ReaderStopped, [], serialize);
    } else {
      var m := msgs[0];
      var tail := Deliveries(msgs[1..]) + [ReaderStopped];
      assert Deliveries(msgs) + [ReaderStopped] == [Received(m)] + tail;
      RunCons(c, Received(m), tail, serialize);
      var c' := Receive(c, m);
      assert Step(c, Received(m), serialize) == c';
      if m.JObject? {
        RunDeliveriesDispatches(c', msgs[1..], serialize);
      } else {
        assert tail == [ReaderStopped];
        StopAtNonObject(c, m, serialize);
      }
    }
  }

  /**
   * The whole-stream reader loop is the event machine fed one `Received`
   * per message read, then `ReaderStopped`: everything proved of the event
   * machine holds of the reader loop's effect on the registry.
   */
  lemma ReaderLoopIsEventRun(c: Client, s: seq<byte>, parse: seq<byte> -> Option<Json>,
                             serialize: Object -> seq<byte>)
    ensures ReaderLoop(c.futures, s, parse).futures
            == Run(c, Deliveries(DecodeStream(s, parse)) + [ReaderStopped], serialize).futures
  {
    ReaderLoopDispatches(c.futures, s, parse);
    RunDeliveriesDispatches(c, DecodeStream(s, parse), serialize);
  }

  lemma InitInv()
    ensures Inv(Init())
  {
  }

  lemma KeyNotIn(ids: set<nat>, id: nat)
    requires id !in ids
    ensures Key(id) !in KeysOf(ids)
  {
    forall x | x in ids
      ensures Key(x) != Key(id)
    {
      IntStringInjective(x, id);
    }
  }

  lemma KeysOfAdd(ids: set<nat>, id: nat)
    ensures KeysOf(ids + {id}) == KeysOf(ids) + {Key(id)}
  {
  }

  lemma KeysOfRemove(ids: set<nat>, id: nat)
    ensures KeysOf(ids - {id}) == KeysOf(ids) - {Key(id)}
  {
    forall x | x in ids && x != id
      ensures Key(x) != Key(id)
    {
      IntStringInjective(x, id);
    }
  }

  // ---------------------------------------------------------------------
  // One lemma per event: what it keeps, in the fixed code and as written
  // ---------------------------------------------------------------------

  /** Allocating a request, fixed or as written, is a step that `Moves`. */
  lemma AllocateMoves(c: Client, payload: Object, writeOk: bool, serialize: Object -> seq<byte>)
    ensures Moves(c, Allocate(c, payload, writeOk, serialize).client)
    ensures Moves(c, AllocateAsWritten(c, payload, writeOk, serialize).client)
  {
  }

  lemma RequestedStep(c: Client, payload: Object, connectOk: bool, writeOk: bool, serialize: Object -> seq<byte>)
    ensures var e := Requested(payload, connectOk, writeOk);
            && Moves(c, Step(c, e, serialize))
            && (Inv(c) ==> Inv(Step(c, e, serialize)))
            && (Settled(c) ==> Settled(Step(c, e, serialize)))
  {
    AllocateMoves(c.(connected := true), payload, writeOk, serialize);
    if Inv(c) {
      StartPreservesInv(c, payload, connectOk, writeOk, serialize);
    }
  }

  lemma RequestedStepAsWritten(c: Client, payload: Object, connectOk: bool, writeOk: bool, serialize: Object -> seq<byte>)
    ensures var e := Requested(payload, connectOk, writeOk);
            && Moves(c, StepAsWritten(c, e, serialize))
            && (InvAsWritten(c) ==> InvAsWritten(StepAsWritten(c, e, serialize)))
  {
    AllocateMoves(c.(connected := true), payload, writeOk, serialize);
    if InvAsWritten(c) {
      StartAsWrittenKeepsInv(c, payload, connectOk, writeOk, serialize);
    }
  }

  lemma HeartbeatStep(c: Client, connectOk: bool, writeOk: bool, serialize: Object -> seq<byte>)
    ensures var e := HeartbeatDue(connectOk, writeOk);
            && Moves(c, Step(c, e, serialize))
            && (Inv(c) ==> Inv(Step(c, e, serialize)))
            && (Settled(c) ==> Settled(Step(c, e, serialize)))
  {
    AllocateMoves(c.(connected := true), HEARTBEAT_PAYLOAD, writeOk, serialize);
    if Inv(c) {
      StartPreservesInv(c, HEARTBEAT_PAYLOAD, connectOk, writeOk, serialize);
    }
  }

  lemma HeartbeatStepAsWritten(c: Client, connectOk: bool, writeOk: bool, serialize: Object -> seq<byte>)
    ensures var e := HeartbeatDue(connectOk, writeOk);
            && Moves(c, StepAsWritten(c, e, serialize))
            && (InvAsWritten(c) ==> InvAsWritten(StepAsWritten(c, e, serialize)))
  {
    AllocateMoves(c.(connected := true), HEARTBEAT_PAYLOAD, writeOk, serialize);
    if InvAsWritten(c) {
      StartAsWrittenKeepsInv(c, HEARTBEAT_PAYLOAD, connectOk, writeOk, serialize);
    }
  }

  lemma ConnectResumedMoves(c: Client, payload: Object, connectOk: bool, writeOk: bool,
                             serialize: Object -> seq<byte>)
    ensures Moves(c, Step(c, ConnectResumed(payload, connectOk, writeOk), serialize))
    ensures Settled(c) ==> Settled(Step(c, ConnectResumed(payload, connectOk, writeOk), serialize))
  {
    if c.connecting > 0 {
      AllocateMoves(c.(connecting := c.connecting - 1, connected := true), payload, writeOk, serialize);
    }
  }

  lemma ConnectResumedKeepsInv(c: Client, payload: Object, connectOk: bool, writeOk: bool,
                               serialize: Object -> seq<byte>)
    requires Inv(c)
    ensures Inv(Step(c, ConnectResumed(payload, connectOk, writeOk), serialize))
  {
    ResumePreservesInv(c, payload, connectOk, writeOk, serialize);
    if c.connecting > 0 {
      var d := c.(connecting := c.connecting - 1);
      assert Step(c, ConnectResumed(payload, connectOk, writeOk), serialize)
             == ResumeAfterConnect(d, payload, connectOk, writeOk, serialize).client;
    }
  }

  lemma ConnectResumedMovesAsWritten(c: Client, payload: Object, connectOk: bool, writeOk: bool,
                                     serialize: Object -> seq<byte>)
    ensures Moves(c, StepAsWritten(c, ConnectResumed(payload, connectOk, writeOk), serialize))
  {
    if c.connecting > 0 {
      AllocateMoves(c.(connecting := c.connecting - 1, connected := true), payload, writeOk, serialize);
    }
  }

  lemma ConnectResumedKeepsInvAsWritten(c: Client, payload: Object, connectOk: bool, writeOk: bool,
                                        serialize: Object -> seq<byte>)
    requires InvAsWritten(c)
    ensures InvAsWritten(StepAsWritten(c, ConnectResumed(payload, connectOk, writeOk), serialize))
  {
    ResumeAsWrittenKeepsInv(c, payload, connectOk, writeOk, serialize);
    if c.connecting > 0 {
      var d := c.(connecting := c.connecting - 1);
      assert StepAsWritten(c, ConnectResumed(payload, connectOk, writeOk), serialize)
             == ResumeAfterConnectAsWritten(d, payload, connectOk, writeOk, serialize).client;
    }
  }

  lemma ReceivedStep(c: Client, msg: Json, serialize: Object -> seq<byte>)
    ensures var e := Received(msg);
            && Moves(c, Step(c, e, serialize)) && Moves(c, StepAsWritten(c, e, serialize))
            && (Inv(c) ==> Inv(Step(c, e, serialize)))
            && (InvAsWritten(c) ==> InvAsWritten(StepAsWritten(c, e, serialize)))
            && (Settled(c) ==> Settled(Step(c, e, serialize)))
  {
    if Inv(c) {
      ReceivePreservesInv(c, msg);
    }
    if InvAsWritten(c) {
      ReceiveKeepsInvAsWritten(c, msg);
    }
    if Settled(c) && c.closed {
      HandleMessageNeverReopens(c.futures, msg);
    }
  }

  lemma ResumedStep(c: Client, id: nat, timedOut: bool, serialize: Object -> seq<byte>)
    ensures var e := Resumed(id, timedOut);
            && Moves(c, Step(c, e, serialize)) && Moves(c, StepAsWritten(c, e, serialize))
            && (Inv(c) ==> Inv(Step(c, e, serialize)))
            && (InvAsWritten(c) ==> InvAsWritten(StepAsWritten(c, e, serialize)))
            && (Settled(c) ==> Settled(Step(c, e, serialize)))
  {
    if Inv(c) {
      AwaitPreservesInv(c, id, timedOut);
    }
    if InvAsWritten(c) {
      AwaitKeepsInvAsWritten(c, id, timedOut);
    }
  }

  lemma ReaderStoppedStep(c: Client, serialize: Object -> seq<byte>)
    ensures && Moves(c, Step(c, ReaderStopped, serialize)) && Moves(c, StepAsWritten(c, ReaderStopped, serialize))
            && (Inv(c) ==> Inv(Step(c, ReaderStopped, serialize)))
            && (InvAsWritten(c) ==> InvAsWritten(StepAsWritten(c, ReaderStopped, serialize)))
            && (Settled(c) ==> Settled(Step(c, ReaderStopped, serialize)))
  {
    if InvAsWritten(c) {
      FailAllKeepsInvAsWritten(c);
    }
  }

  lemma ClosingStep(c: Client, serialize: Object -> seq<byte>)
    ensures && Moves(c, Step(c, Closing, serialize)) && Moves(c, StepAsWritten(c, Closing, serialize))
            && (Inv(c) ==> Inv(Step(c, Closing, serialize)))
            && (InvAsWritten(c) ==> InvAsWritten(StepAsWritten(c, Closing, serialize)))
            && (Settled(c) ==> Settled(Step(c, Closing, serialize)))
  {
    if InvAsWritten(c) {
      FailAllKeepsInvAsWritten(c);
    }
  }

  /** Every event, in both machines: `Moves`, and the invariants each machine keeps. */
  lemma StepMoves(c: Client, e: Event, serialize: Object -> seq<byte>)
    ensures Moves(c, Step(c, e, serialize)) && Moves(c, StepAsWritten(c, e, serialize))
    ensures Inv(c) ==> Inv(Step(c, e, serialize))
    ensures InvAsWritten(c) ==> InvAsWritten(StepAsWritten(c, e, serialize))
    ensures Settled(c) ==> Settled(Step(c, e, serialize))
  {
    match e
    case Connecting(ok) =>
    case ConnectSuspended =>
    case Requested(payload, connectOk, writeOk) =>
      RequestedStep(c, payload, connectOk, writeOk, serialize);
      RequestedStepAsWritten(c, payload, connectOk, writeOk, serialize);
    case HeartbeatDue(connectOk, writeOk) =>
      HeartbeatStep(c, connectOk, writeOk, serialize);
      HeartbeatStepAsWritten(c, connectOk, writeOk, serialize);
    case ConnectResumed(payload, connectOk, writeOk) =>
      ConnectResumedMoves(c, payload, connectOk, writeOk, serialize);
      ConnectResumedMovesAsWritten(c, payload, connectOk, writeOk, serialize);
      if Inv(c) {
        ConnectResumedKeepsInv(c, payload, connectOk, writeOk, serialize);
      }
      if InvAsWritten(c) {
        ConnectResumedKeepsInvAsWritten(c, payload, connectOk, writeOk, serialize);
      }
    case Received(msg) =>
      ReceivedStep(c, msg, serialize);
    case Resumed(id, timedOut) =>
      ResumedStep(c, id, timedOut, serialize);
    case ReaderStopped =>
      ReaderStoppedStep(c, serialize);
    case Closing =>
      ClosingStep(c, serialize);
  }

  /** Every step keeps the invariant; in particular a fresh id never collides with a live entry. */
  lemma StepPreservesInv(c: Client, e: Event, serialize: Object -> seq<byte>)
    requires Inv(c)
    ensures Inv(Step(c, e, serialize))
  {
    StepMoves(c, e, serialize);
  }

  lemma ReceivePreservesInv(c: Client, msg: Json)
    requires Inv(c)
    ensures Inv(Receive(c, msg))
  {
  }

  lemma AwaitPreservesInv(c: Client, id: nat, timedOut: bool)
    requires Inv(c)
    ensures AwaitReply(c, id, timedOut).Woke? ==> Inv(AwaitReply(c, id, timedOut).client)
  {
    KeysOfRemove(c.waiting, id);
  }

  lemma ResumePreservesInv(c: Client, payload: Object, connectOk: bool, writeOk: bool,
                           serialize: Object -> seq<byte>)
    requires Inv(c)
    ensures c.connecting > 0 ==>
              Inv(ResumeAfterConnect(c.(connecting := c.connecting - 1), payload, connectOk, writeOk, serialize).client)
  {
    if c.connecting > 0 {
      var d := c.(connecting := c.connecting - 1);
      var r := ResumeAfterConnect(d, payload, connectOk, writeOk, serialize);
      if connectOk && !c.closed {
        AllocatePreservesInv(d.(connected := true), payload, writeOk, serialize);
      } else {
        assert r.client.counter == c.counter && r.client.futures == c.futures && r.client.waiting == c.waiting;
      }
    }
  }

  lemma AllocatePreservesInv(c: Client, payload: Object, writeOk: bool, serialize: Object -> seq<byte>)
    requires Inv(c)
    ensures Inv(Allocate(c, payload, writeOk, serialize).client)
  {
    var r := Allocate(c, payload, writeOk, serialize);
    var id := c.counter + 1;
    KeyNotIn(c.waiting, id);
    if r.Sent? {
      KeysOfAdd(c.waiting, id);
    }
  }

  lemma StartPreservesInv(c: Client, payload: Object, connectOk: bool, writeOk: bool,
                          serialize: Object -> seq<byte>)
    requires Inv(c)
    ensures Inv(StartRequest(c, payload, connectOk, writeOk, serialize).client)
  {
    if !c.closed && (c.connected || connectOk) {
      AllocatePreservesInv(c.(connected := true), payload, writeOk, serialize);
    }
  }

  lemma {:induction false} RunPreservesInv(c: Client, es: seq<Event>, serialize: Object -> seq<byte>)
    requires Inv(c)
    ensures Inv(Run(c, es, serialize))
    decreases |es|
  {
    if |es| > 0 {
      StepPreservesInv(c, es[0], serialize);
      RunPreservesInv(Step(c, es[0], serialize), es[1..], serialize);
    }
  }

  /** Every reachable client satisfies the invariant. */
  lemma ReachableInv(es: seq<Event>, serialize: Object -> seq<byte>)
    ensures Inv(Run(Init(), es, serialize))
  {
    RunPreservesInv(Init(), es, serialize);
  }

  /**
   * At-most-once resolution: once a future is done, no step gives it another
   * outcome; at most its sender removes it.
   */
  lemma StepNeverReresolves(c: Client, e: Event, serialize: Object -> seq<byte>, k: string)
    requires Inv(c)
    requires k in c.futures && c.futures[k].Done()
    ensures k in Step(c, e, serialize).futures ==> Step(c, e, serialize).futures[k] == c.futures[k]
  {
    InvIsWeakInv(c);
    FreshKeyNotIssued(c.counter);
    SendNeverReresolves(c, e, serialize, k);
  }

  /** The fresh key differs from every live one, so registering it leaves done entries alone. */
  lemma SendNeverReresolves(c: Client, e: Event, serialize: Object -> seq<byte>, k: string)
    requires k in c.futures && c.futures[k].Done() && k != Key(c.counter + 1)
    ensures k in Step(c, e, serialize).futures ==> Step(c, e, serialize).futures[k] == c.futures[k]
    ensures k in StepAsWritten(c, e, serialize).futures ==> StepAsWritten(c, e, serialize).futures[k] == c.futures[k]
  {
    StepMoves(c, e, serialize);
  }

  /** Over any run, a done future keeps its outcome for as long as it stays registered. */
  lemma {:induction false} RunNeverReresolves(c: Client, es: seq<Event>, serialize: Object -> seq<byte>, k: string)
    requires Inv(c)
    requires k in c.futures && c.futures[k].Done()
    ensures k in Run(c, es, serialize).futures ==> Run(c, es, serialize).futures[k] == c.futures[k]
    decreases |es|
  {
    if |es| > 0 {
      var c' := Step(c, es[0], serialize);
      StepNeverReresolves(c, es[0], serialize, k);
      StepPreservesInv(c, es[0], serialize);
      if k in c'.futures {
        RunNeverReresolves(c', es[1..], serialize, k);
      } else {
        InvIsWeakInv(c);
        StepCounter(c, es[0], serialize);
        IssuedKeysGrow(c.counter);
        RunDoesNotReAdd(c', es[1..], serialize, k);
      }
    }
  }

  /** One step never re-adds the key of an id already handed out and since removed. */
  lemma StepDoesNotReAdd(c: Client, e: Event, serialize: Object -> seq<byte>, k: string)
    requires k !in c.futures && k in IssuedKeys(c.counter)
    ensures k !in Step(c, e, serialize).futures && k in IssuedKeys(Step(c, e, serialize).counter)
  {
    StepAddsOnlyFreshKey(c, e, serialize);
    FreshKeyNotIssued(c.counter);
    IssuedKeysGrow(c.counter);
  }

  /**
   * A key missing from the registry of a reachable client is never
   * registered again: every fresh id is larger than all before it.
   */
  lemma {:induction false} RunDoesNotReAdd(c: Client, es: seq<Event>, serialize: Object -> seq<byte>, k: string)
    requires k !in c.futures && k in IssuedKeys(c.counter)
    ensures k !in Run(c, es, serialize).futures
    decreases |es|
  {
    if |es| > 0 {
      var c' := Step(c, es[0], serialize);
      StepDoesNotReAdd(c, es[0], serialize, k);
      RunDoesNotReAdd(c', es[1..], serialize, k);
    }
  }

  lemma IssuedKeysGrow(n: nat)
    ensures IssuedKeys(n + 1) == IssuedKeys(n) + {Key(n + 1)}
  {
  }

  /** The next id's key is not the key of any id handed out before it. */
  lemma FreshKeyNotIssued(n: nat)
    ensures Key(n + 1) !in IssuedKeys(n)
  {
    forall id: nat | 1 <= id <= n
      ensures Key(id) != Key(n + 1)
    {
      IntStringInjective(id, n + 1);
    }
  }

  /** The reachable clients of the fixed code satisfy the weaker invariant too. */
  lemma InvIsWeakInv(c: Client)
    requires Inv(c)
    ensures WeakInv(c)
  {
    forall k | k in c.futures
      ensures k in IssuedKeys(c.counter)
    {
      var id :| id in c.waiting && Key(id) == k;
    }
  }

  /**
   * A step registers at most one key, that of the next id, and then hands
   * that id out; the as-written step likewise.
   */
  lemma StepAddsOnlyFreshKey(c: Client, e: Event, serialize: Object -> seq<byte>)
    ensures Step(c, e, serialize).futures.Keys <= c.futures.Keys + {Key(c.counter + 1)}
    ensures Step(c, e, serialize).counter == c.counter || Step(c, e, serialize).counter == c.counter + 1
    ensures Step(c, e, serialize).counter == c.counter ==> Step(c, e, serialize).futures.Keys <= c.futures.Keys
  {
    StepMoves(c, e, serialize);
  }

  lemma StepAsWrittenAddsOnlyFreshKey(c: Client, e: Event, serialize: Object -> seq<byte>)
    ensures StepAsWritten(c, e, serialize).counter == c.counter ||
            StepAsWritten(c, e, serialize).counter == c.counter + 1
    ensures StepAsWritten(c, e, serialize).futures.Keys <= c.futures.Keys + {Key(c.counter + 1)}
    ensures StepAsWritten(c, e, serialize).counter == c.counter ==>
              StepAsWritten(c, e, serialize).futures.Keys <= c.futures.Keys
  {
    StepMoves(c, e, serialize);
  }

  /** The as-written step keeps the weaker invariant. */
  lemma StepAsWrittenKeepsWeakInv(c: Client, e: Event, serialize: Object -> seq<byte>)
    requires WeakInv(c)
    ensures WeakInv(StepAsWritten(c, e, serialize))
  {
    StepAsWrittenAddsOnlyFreshKey(c, e, serialize);
    IssuedKeysGrow(c.counter);
  }

  /**
   * At-most-once resolution holds for the code as written too: a done
   * future keeps its outcome for as long as it stays registered.
   */
  lemma StepAsWrittenNeverReresolves(c: Client, e: Event, serialize: Object -> seq<byte>, k: string)
    requires WeakInv(c)
    requires k in c.futures && c.futures[k].Done()
    ensures k in StepAsWritten(c, e, serialize).futures ==>
              StepAsWritten(c, e, serialize).futures[k] == c.futures[k]
  {
    FreshKeyNotIssued(c.counter);
    SendNeverReresolves(c, e, serialize, k);
  }

  lemma {:induction false} RunAsWrittenKeepsWeakInv(c: Client, es: seq<Event>, serialize: Object -> seq<byte>)
    requires WeakInv(c)
    ensures WeakInv(RunAsWritten(c, es, serialize))
    decreases |es|
  {
    if |es| > 0 {
      StepAsWrittenKeepsWeakInv(c, es[0], serialize);
      RunAsWrittenKeepsWeakInv(StepAsWritten(c, es[0], serialize), es[1..], serialize);
    }
  }

  /** One step never re-adds the key of an id already handed out and since removed. */
  lemma StepAsWrittenDoesNotReAdd(c: Client, e: Event, serialize: Object -> seq<byte>, k: string)
    requires k !in c.futures && k in IssuedKeys(c.counter)
    ensures k !in StepAsWritten(c, e, serialize).futures && k in IssuedKeys(StepAsWritten(c, e, serialize).counter)
  {
    StepAsWrittenAddsOnlyFreshKey(c, e, serialize);
    FreshKeyNotIssued(c.counter);
    IssuedKeysGrow(c.counter);
  }

  lemma {:induction false} RunAsWrittenDoesNotReAdd(c: Client, es: seq<Event>, serialize: Object -> seq<byte>, k: string)
    requires k !in c.futures && k in IssuedKeys(c.counter)
    ensures k !in RunAsWritten(c, es, serialize).futures
    decreases |es|
  {
    if |es| > 0 {
      var c' := StepAsWritten(c, es[0], serialize);
      StepAsWrittenDoesNotReAdd(c, es[0], serialize, k);
      RunAsWrittenDoesNotReAdd(c', es[1..], serialize, k);
    }
  }

  lemma {:induction false} RunAsWrittenNeverReresolves(c: Client, es: seq<Event>, serialize: Object -> seq<byte>, k: string)
    requires WeakInv(c)
    requires k in c.futures && c.futures[k].Done()
    ensures k in RunAsWritten(c, es, serialize).futures ==> RunAsWritten(c, es, serialize).futures[k] == c.futures[k]
    decreases |es|
  {
    if |es| > 0 {
      var c' := StepAsWritten(c, es[0], serialize);
      StepAsWrittenNeverReresolves(c, es[0], serialize, k);
      StepAsWrittenKeepsWeakInv(c, es[0], serialize);
      StepAsWrittenAddsOnlyFreshKey(c, es[0], serialize);
      IssuedKeysGrow(c.counter);
      if k in c'.futures {
        RunAsWrittenNeverReresolves(c', es[1..], serialize, k);
      } else {
        RunAsWrittenDoesNotReAdd(c', es[1..], serialize, k);
      }
    }
  }

  /** A fresh client satisfies the weaker invariant, so every as-written run does. */
  lemma ReachableWeakInv(es: seq<Event>, serialize: Object -> seq<byte>)
    ensures WeakInv(RunAsWritten(Init(), es, serialize))
  {
    RunAsWrittenKeepsWeakInv(Init(), es, serialize);
  }

  /** The invariant of the fixed code implies the one of the code as written. */
  lemma InvIsInvAsWritten(c: Client)
    requires Inv(c)
    ensures InvAsWritten(c)
  {
    InvIsWeakInv(c);
  }

  lemma InitInvAsWritten()
    ensures InvAsWritten(Init())
  {
  }

  /** Allocation as written keeps `InvAsWritten`: the fresh key is new, and its call waits on it. */
  lemma AllocateAsWrittenKeepsInv(c: Client, payload: Object, writeOk: bool, serialize: Object -> seq<byte>)
    requires InvAsWritten(c)
    ensures InvAsWritten(AllocateAsWritten(c, payload, writeOk, serialize).client)
  {
    var r := AllocateAsWritten(c, payload, writeOk, serialize);
    var id := c.counter + 1;
    FreshKeyNotIssued(c.counter);
    IssuedKeysGrow(c.counter);
    KeysOfAdd(c.waiting, id);
    assert r.client.futures == c.futures[Key(id) := Pending];
    assert r.client.waiting == c.waiting || r.client.waiting == c.waiting + {id};
    forall k | k in r.client.futures && r.client.futures[k].Resolved?
      ensures ReplyKey(r.client.futures[k].msg) == Some(k)
    {
      assert k != Key(id) && r.client.futures[k] == c.futures[k];
    }
  }

  lemma AwaitKeepsInvAsWritten(c: Client, id: nat, timedOut: bool)
    requires InvAsWritten(c)
    ensures AwaitReply(c, id, timedOut).Woke? ==> InvAsWritten(AwaitReply(c, id, timedOut).client)
  {
    KeysOfRemove(c.waiting, id);
  }

  lemma ReceiveKeepsInvAsWritten(c: Client, msg: Json)
    requires InvAsWritten(c)
    ensures InvAsWritten(Receive(c, msg))
  {
  }

  /** Every step of the code as written keeps `InvAsWritten`. */
  lemma StepAsWrittenKeepsInv(c: Client, e: Event, serialize: Object -> seq<byte>)
    requires InvAsWritten(c)
    ensures InvAsWritten(StepAsWritten(c, e, serialize))
  {
    StepMoves(c, e, serialize);
  }

  lemma StartAsWrittenKeepsInv(c: Client, payload: Object, connectOk: bool, writeOk: bool,
                               serialize: Object -> seq<byte>)
    requires InvAsWritten(c)
    ensures InvAsWritten(StartRequestAsWritten(c, payload, connectOk, writeOk, serialize).client)
  {
    if !c.closed && (c.connected || connectOk) {
      AllocateAsWrittenKeepsInv(c.(connected := true), payload, writeOk, serialize);
    }
  }

  lemma ResumeAsWrittenKeepsInv(c: Client, payload: Object, connectOk: bool, writeOk: bool,
                                serialize: Object -> seq<byte>)
    requires InvAsWritten(c)
    ensures c.connecting > 0 ==>
              InvAsWritten(ResumeAfterConnectAsWritten(c.(connecting := c.connecting - 1), payload, connectOk, writeOk, serialize).client)
  {
    if c.connecting > 0 {
      var d := c.(connecting := c.connecting - 1);
      var r := ResumeAfterConnectAsWritten(d, payload, connectOk, writeOk, serialize);
      if connectOk {
        AllocateAsWrittenKeepsInv(d.(connected := true), payload, writeOk, serialize);
        assert r == AllocateAsWritten(d.(connected := true), payload, writeOk, serialize);
      } else {
        assert r.client == d;
      }
    }
  }

  /** Failing the pending futures, by `close()` or at the reader loop's end, keeps `InvAsWritten`. */
  lemma FailAllKeepsInvAsWritten(c: Client)
    requires InvAsWritten(c)
    ensures InvAsWritten(Close(c)) && InvAsWritten(LoseConnection(c))
  {
  }

  lemma {:induction false} RunAsWrittenKeepsInv(c: Client, es: seq<Event>, serialize: Object -> seq<byte>)
    requires InvAsWritten(c)
    ensures InvAsWritten(RunAsWritten(c, es, serialize))
    decreases |es|
  {
    if |es| > 0 {
      StepAsWrittenKeepsInv(c, es[0], serialize);
      RunAsWrittenKeepsInv(StepAsWritten(c, es[0], serialize), es[1..], serialize);
    }
  }

  /**
   * Every client the code as written reaches satisfies `InvAsWritten`, so
   * `ReplyNamesRequest` and `CloseWakesEveryWaiter` hold of it.
   */
  lemma ReachableInvAsWritten(es: seq<Event>, serialize: Object -> seq<byte>)
    ensures InvAsWritten(RunAsWritten(Init(), es, serialize))
  {
    RunAsWrittenKeepsInv(Init(), es, serialize);
  }

  /**
   * Once `close()` has run, nothing is pending again: no step of the fixed
   * code registers a request on a closed client or un-does a future.
   */
  lemma StepKeepsSettled(c: Client, e: Event, serialize: Object -> seq<byte>)
    requires Settled(c)
    ensures Settled(Step(c, e, serialize))
  {
    StepMoves(c, e, serialize);
  }

  lemma {:induction false} RunKeepsSettled(c: Client, es: seq<Event>, serialize: Object -> seq<byte>)
    requires Settled(c)
    ensures Settled(Run(c, es, serialize))
    decreases |es|
  {
    if |es| > 0 {
      StepKeepsSettled(c, es[0], serialize);
      RunKeepsSettled(Step(c, es[0], serialize), es[1..], serialize);
    }
  }

  /** After `close()`, whatever runs next, every registered future is done. */
  lemma CloseSettlesForGood(c: Client, es: seq<Event>, serialize: Object -> seq<byte>)
    ensures Run(Close(c), es, serialize).closed
    ensures forall k :: k in Run(Close(c), es, serialize).futures ==> Run(Close(c), es, serialize).futures[k].Done()
  {
    ClosedIsSticky(Close(c), es, serialize);
    RunKeepsSettled(Close(c), es, serialize);
  }

  /**
   * As written, a `close()` that runs while a fresh client's `send_request`
   * awaits its connect does not stop that call: after `close()` has
   * returned, request 1 is registered as pending on the closed client, and
   * `close()` never fails it. The fixed code refuses the call instead.
   */
  lemma AsWrittenCloseDuringConnectRegisters(payload: Object, serialize: Object -> seq<byte>)
    requires |serialize(BuildRequest(payload, 1))| < FRAME_LIMIT
    ensures var es := [ConnectSuspended, Closing, ConnectResumed(payload, true, true)];
            var c := RunAsWritten(Init(), es, serialize);
            && c.closed
            && Key(1) in c.futures && c.futures[Key(1)].Pending?
            && !Settled(c)
    ensures var es := [ConnectSuspended, Closing, ConnectResumed(payload, true, true)];
            var c := Run(Init(), es, serialize);
            && c.closed && c.futures == map[] && c.counter == 0
  {
    var es := [ConnectSuspended, Closing, ConnectResumed(payload, true, true)];
    var c1 := StepAsWritten(Init(), es[0], serialize);
    var c2 := StepAsWritten(c1, es[1], serialize);
    assert c2 == Init().(connecting := 1, closed := true);
    var c3 := StepAsWritten(c2, es[2], serialize);
    assert c3.futures == map[Key(1) := Pending];
    assert RunAsWritten(Init(), es, serialize) == RunAsWritten(c1, es[1..], serialize);
    assert es[1..][1..] == es[2..];
    assert RunAsWritten(c2, es[2..], serialize) == c3;
    var d1 := Step(Init(), es[0], serialize);
    var d2 := Step(d1, es[1], serialize);
    assert Run(d2, es[2..], serialize) == Step(d2, es[2], serialize);
  }

  /** `_closed` never goes back to false. */
  lemma {:induction false} ClosedIsSticky(c: Client, es: seq<Event>, serialize: Object -> seq<byte>)
    requires c.closed
    ensures Run(c, es, serialize).closed
    ensures RunAsWritten(c, es, serialize).closed
    decreases |es|
  {
    if |es| > 0 {
      ClosedIsSticky(Step(c, es[0], serialize), es[1..], serialize);
      ClosedIsSticky(StepAsWritten(c, es[0], serialize), es[1..], serialize);
    }
  }

  lemma StepCounter(c: Client, e: Event, serialize: Object -> seq<byte>)
    ensures Step(c, e, serialize).counter == c.counter || Step(c, e, serialize).counter == c.counter + 1
  {
    StepMoves(c, e, serialize);
  }

  /**
   * The ids handed out are the consecutive numbers after the starting
   * counter, in order: strictly increasing and never reused.
   */
  lemma {:induction false} IssuedAreConsecutive(c: Client, es: seq<Event>, serialize: Object -> seq<byte>)
    ensures |Issued(c, es, serialize)| == Run(c, es, serialize).counter - c.counter
    ensures forall i :: 0 <= i < |Issued(c, es, serialize)| ==> Issued(c, es, serialize)[i] == c.counter + 1 + i
    decreases |es|
  {
    if |es| > 0 {
      StepCounter(c, es[0], serialize);
      IssuedAreConsecutive(Step(c, es[0], serialize), es[1..], serialize);
    }
  }

  /** The same holds of the code as written: its ids are consecutive too. */
  lemma {:induction false} IssuedAsWrittenAreConsecutive(c: Client, es: seq<Event>, serialize: Object -> seq<byte>)
    ensures |IssuedAsWritten(c, es, serialize)| == RunAsWritten(c, es, serialize).counter - c.counter
    ensures forall i :: 0 <= i < |IssuedAsWritten(c, es, serialize)| ==>
              IssuedAsWritten(c, es, serialize)[i] == c.counter + 1 + i
    decreases |es|
  {
    if |es| > 0 {
      StepAsWrittenAddsOnlyFreshKey(c, es[0], serialize);
      IssuedAsWrittenAreConsecutive(StepAsWritten(c, es[0], serialize), es[1..], serialize);
    }
  }

  /** From a fresh client the ids are 1, 2, 3, ..., in the fixed code and as written. */
  lemma IdsStartAtOne(es: seq<Event>, serialize: Object -> seq<byte>)
    ensures forall i :: 0 <= i < |Issued(Init(), es, serialize)| ==> Issued(Init(), es, serialize)[i] == i + 1
    ensures forall i, j :: 0 <= i < j < |Issued(Init(), es, serialize)| ==>
              Issued(Init(), es, serialize)[i] < Issued(Init(), es, serialize)[j]
    ensures forall i :: 0 <= i < |IssuedAsWritten(Init(), es, serialize)| ==>
              IssuedAsWritten(Init(), es, serialize)[i] == i + 1
  {
    IssuedAreConsecutive(Init(), es, serialize);
    IssuedAsWrittenAreConsecutive(Init(), es, serialize);
  }

  /** A successful `send_request` returns a reply naming the id it sent. */
  lemma ReplyNamesRequest(c: Client, id: nat, timedOut: bool)
    requires InvAsWritten(c)
    requires AwaitReply(c, id, timedOut).Woke? && AwaitReply(c, id, timedOut).outcome.Reply?
    ensures ReplyKey(AwaitReply(c, id, timedOut).outcome.msg) == Some(Key(id))
  {
  }

  /** After `close()`, no call is left waiting: each wakes at once, without waiting for a deadline. */
  lemma CloseWakesEveryWaiter(c: Client, id: nat)
    requires InvAsWritten(c) && id in c.waiting
    ensures Key(id) in c.futures
    ensures AwaitReply(Close(c), id, false).Woke?
    ensures c.futures[Key(id)].Pending? ==>
              AwaitReply(Close(c), id, false).outcome == Raised(SlotFailed(ClientClosed))
    ensures c.futures[Key(id)].Done() ==>
              AwaitReply(Close(c), id, false).outcome == AwaitReply(c, id, false).outcome
  {
  }

  /** After `close()`, every new request is refused without touching the state. */
  lemma ClosedRefusesRequests(c: Client, payload: Object, connectOk: bool, writeOk: bool,
                              serialize: Object -> seq<byte>)
    ensures StartRequest(Close(c), payload, connectOk, writeOk, serialize) == Rejected(Close(c), ClientIsClosed)
  {
  }

  /** A timed-out request's entry is gone from the registry afterwards. */
  lemma TimeoutRemovesEntry(c: Client, id: nat)
    requires Inv(c) && id in c.waiting && c.futures[Key(id)].Pending?
    ensures AwaitReply(c, id, true) == Woke(c.(futures := c.futures - {Key(id)}, waiting := c.waiting - {id}), Raised(Timeout))
    ensures Key(id) !in AwaitReply(c, id, true).client.futures
  {
  }

  /**
   * As written, a failed write leaves behind a pending entry that no call
   * waits on: it is failed by a later `close()` but never removed.
   */
  lemma AsWrittenWriteFailureLeaksEntry(c: Client, payload: Object, connectOk: bool,
                                        serialize: Object -> seq<byte>)
    requires Inv(c) && !c.closed && (c.connected || connectOk)
    ensures var r := StartRequestAsWritten(c, payload, connectOk, false, serialize);
            && r.Rejected? && r.error == WriteFailed
            && Key(c.counter + 1) in r.client.futures
            && r.client.futures[Key(c.counter + 1)].Pending?
            && c.counter + 1 !in r.client.waiting
            && !Inv(r.client)
  {
    var r := StartRequestAsWritten(c, payload, connectOk, false, serialize);
    KeyNotIn(r.client.waiting, c.counter + 1);
  }
}

=== FILE: common.dfy ===
/** Small shared definitions: bytes on the wire and an optional value. */
module Common {

  /** One octet of the transport's byte stream. */
  type byte = b: int | 0 <= b < 256

  /** Python's `Optional[...]`: a value or `None`. */
  datatype Option<T> = None | Some(value: T)
}

=== FILE: framing.dfy ===
/**
 * The wire format: every frame is a 4-byte big-endian unsigned length
 * (`struct` format ">I") followed by that many bytes of UTF-8 JSON.
 * The transport is modelled as the sequence of bytes still to be read; the
 * end of that sequence is the end of the stream.
 */
module Framing {
  import opened Common
  import opened Messages

  const PREFIX_LEN: nat := 4
  /** 2^32: the first length ">I" cannot represent (`struct.pack` raises). */
  const FRAME_LIMIT: nat := 0x1_0000_0000

  /** `struct.pack(">I", n)`: the most significant byte first. */
  function PackLength(n: nat): (r: seq<byte>)
    requires n < FRAME_LIMIT
    ensures |r| == PREFIX_LEN
  {
    var q1 := n / 0x100;
    var q2 := q1 / 0x100;
    [q2 / 0x100, q2 % 0x100, q1 % 0x100, n % 0x100]
  }

  /** `struct.unpack(">I", b)[0]`. */
  function UnpackLength(b: seq<byte>): (n: nat)
    requires |b| == PREFIX_LEN
    ensures n < FRAME_LIMIT
  {
    ((b[0] as int * 0x100 + b[1] as int) * 0x100 + b[2] as int) * 0x100 + b[3] as int
  }

  lemma DivModByte(q: nat, r: nat)
    requires r < 0x100
    ensures (q * 0x100 + r) / 0x100 == q
    ensures (q * 0x100 + r) % 0x100 == r
  {
  }

  /** Unpacking a packed length gives the length back. */
  lemma UnpackPack(n: nat)
    requires n < FRAME_LIMIT
    ensures UnpackLength(PackLength(n)) == n
  {
  }

  /** Every 4-byte prefix is the packing of exactly one length. */
  lemma PackUnpack(b: seq<byte>)
    requires |b| == PREFIX_LEN
    ensures PackLength(UnpackLength(b)) == b
  {
    var q2 := b[0] as int * 0x100 + b[1] as int;
    var q1 := q2 * 0x100 + b[2] as int;
    var n := q1 * 0x100 + b[3] as int;
    DivModByte(q1, b[3]);
    DivModByte(q2, b[2]);
    DivModByte(b[0], b[1]);
  }

  /**
   * The bytes `_write_message` hands to the transport for an encoded body,
   * or `None` when `struct.pack` rejects the body's length.
   */
  function EncodeFrame(body: seq<byte>): (r: Option<seq<byte>>)
    ensures r.Some? <==> |body| < FRAME_LIMIT
    ensures r.Some? ==> |r.value| == PREFIX_LEN + |body|
    ensures r.Some? ==> r.value[PREFIX_LEN..] == body
    ensures r.Some? ==> UnpackLength(r.value[..PREFIX_LEN]) == |body|
  {
    if |body| < FRAME_LIMIT then
      UnpackPack(|body|);
      Some(PackLength(|body|) + body)
    else
      None
  }

  /**
   * `readexactly(n)`: the next `n` bytes and what follows them, or `None`
   * when the stream ends first (`IncompleteReadError`).
   */
  function ReadExact(s: seq<byte>, n: nat): (r: Option<(seq<byte>, seq<byte>)>)
    ensures r.Some? <==> n <= |s|
    ensures r.Some? ==> |r.value.0| == n && r.value.0 + r.value.1 == s
  {
    if n <= |s| then Some((s[..n], s[n..])) else None
  }

  /**
   * `_read_message`: one frame from the front of the stream, as the parsed
   * message and the bytes left after it, or `None`. `parse` stands for
   * `json.loads(body.decode("utf-8"))`; it answers `None` when either step
   * fails. A body that parses to JSON `null` also makes `_read_message`
   * return `None`.
   */
  function ReadMessage(s: seq<byte>, parse: seq<byte> -> Option<Json>): (r: Option<(Json, seq<byte>)>)
    ensures |s| < PREFIX_LEN ==> r.None?
    ensures |s| >= PREFIX_LEN && UnpackLength(s[..PREFIX_LEN]) == 0 ==> r.None?
    ensures |s| >= PREFIX_LEN && UnpackLength(s[..PREFIX_LEN]) > |s| - PREFIX_LEN ==> r.None?
    ensures r.Some? ==> r.value.0 != JNull
    ensures r.Some? ==> |r.value.1| + PREFIX_LEN < |s| && r.value.1 == s[|s| - |r.value.1|..]
  {
    match ReadExact(s, PREFIX_LEN)
    case None => None
    case Some((prefix, afterPrefix)) =>
      var length := UnpackLength(prefix);
      if length == 0 then None
      else
        match ReadExact(afterPrefix, length)
        case None => None
        case Some((body, rest)) =>
          match parse(body)
          case None => None
          case Some(msg) => if msg == JNull then None else Some((msg, rest))
  }

  /**
   * Round trip: reading back a frame written for a body that parses to a
   * message yields that message and leaves exactly the bytes that followed.
   */
  lemma FrameRoundTrip(body: seq<byte>, rest: seq<byte>, parse: seq<byte> -> Option<Json>, msg: Json)
    requires |body| < FRAME_LIMIT
    requires parse(body) == Some(msg) && msg != JNull
    requires |body| > 0
    ensures EncodeFrame(body).Some?
    ensures ReadMessage(EncodeFrame(body).value + rest, parse) == Some((msg, rest))
  {
    var frame := EncodeFrame(body).value;
    var s := frame + rest;
    assert s[..PREFIX_LEN] == frame[..PREFIX_LEN];
    assert s[PREFIX_LEN..][..|body|] == body;
    assert s[PREFIX_LEN..][|body|..] == rest;
  }

  /**
   * A frame whose body does not parse, or parses to `null`, is read as
   * `None` whatever follows it.
   */
  lemma UnparsableFrame(body: seq<byte>, rest: seq<byte>, parse: seq<byte> -> Option<Json>)
    requires |body| < FRAME_LIMIT
    requires parse(body) == None || parse(body) == Some(JNull)
    ensures EncodeFrame(body).Some?
    ensures ReadMessage(EncodeFrame(body).value + rest, parse) == None
  {
    var frame := EncodeFrame(body).value;
    var s := frame + rest;
    assert s[..PREFIX_LEN] == frame[..PREFIX_LEN];
    if |body| > 0 {
      assert s[PREFIX_LEN..][..|body|] == body;
    }
  }

  /** A zero length prefix reads as `None` whatever follows it. */
  lemma ZeroLengthFrame(rest: seq<byte>, parse: seq<byte> -> Option<Json>)
    ensures ReadMessage([0, 0, 0, 0] + rest, parse) == None
  {
  }
}

=== FILE: messages.dfy ===
/**
 * Messages as the client sees them once `json.loads` has run: a JSON value,
 * requests and responses being JSON objects. This module also models the two
 * pieces of Python behaviour the protocol leans on: `str(...)` of a message
 * id (registry keys are `str(msg_id)`) and the copy-and-fill that
 * `send_request` performs on the caller's dict.
 */
module Messages {
  import opened Common

  /** A parsed JSON value. Numbers with a fraction or exponent are not modelled. */
  datatype Json =
    | JNull
    | JBool(b: bool)
    | JInt(i: int)
    | JStr(s: string)
    | JArray(items: seq<Json>)
    | JObject(fields: map<string, Json>)

  /** A Python dict with string keys, as passed to `send_request`. */
  type Object = map<string, Json>

  // ---------------------------------------------------------------------
  // str() of an integer, and its inverse
  // ---------------------------------------------------------------------

  function DigitChar(d: nat): (c: char)
    requires d < 10
  {
    "0123456789"[d]
  }

  predicate IsDigit(c: char) {
    '0' <= c <= '9'
  }

  /** Decimal numeral of a natural number, without leading zeros. */
  function NatDigits(n: nat): (s: string)
    ensures |s| >= 1
    ensures forall i :: 0 <= i < |s| ==> IsDigit(s[i])
    ensures |s| == 1 <==> n < 10
    ensures s[0] == '0' <==> n == 0
    decreases n
  {
    if n < 10 then [DigitChar(n)] else NatDigits(n / 10) + [DigitChar(n % 10)]
  }

  /** Python's `str(i)` for an `int`. */
  function IntString(i: int): (s: string)
    ensures |s| >= 1
    ensures i >= 0 <==> IsDigit(s[0])
    ensures i >= 0 && |s| > 1 ==> s[0] != '0'
    ensures i < 0 ==> |s| >= 2 && s[0] == '-' && IsDigit(s[1]) && s[1] != '0'
    ensures s[0] == '0' <==> i == 0
    ensures forall j :: (if i < 0 then 1 else 0) <= j < |s| ==> IsDigit(s[j])
  {
    if i < 0 then "-" + NatDigits(-i) else NatDigits(i)
  }

  /** Reads a string of digits back as a number (the last character is the units digit). */
  function DigitsValue(s: string): int
    decreases |s|
  {
    if |s| == 0 then 0 else DigitsValue(s[..|s| - 1]) * 10 + (s[|s| - 1] as int - '0' as int)
  }

  /** Python's `int(s)` on the strings `str` produces for integers. */
  function ParseInt(s: string): int {
    if |s| > 0 && s[0] == '-' then -DigitsValue(s[1..]) else DigitsValue(s)
  }

  lemma {:induction false} DigitsValueOfNatDigits(n: nat)
    ensures DigitsValue(NatDigits(n)) == n
    decreases n
  {
    if n >= 10 {
      var prefix := NatDigits(n / 10);
      var s := prefix + [DigitChar(n % 10)];
      assert s[..|s| - 1] == prefix;
      DigitsValueOfNatDigits(n / 10);
    }
  }

  /** `int(str(i)) == i`: the numeral names the integer it was made from. */
  lemma ParseIntString(i: int)
    ensures ParseInt(IntString(i)) == i
  {
    if i < 0 {
      var d := NatDigits(-i);
      var s := "-" + d;
      assert s[0] == '-' && s[1..] == d;
      assert ParseInt(s) == -DigitsValue(d);
      DigitsValueOfNatDigits(-i);
    } else {
      var d := NatDigits(i);
      assert IsDigit(d[0]);
      assert ParseInt(d) == DigitsValue(d);
      DigitsValueOfNatDigits(i);
    }
  }

  /** Two ids share a registry key exactly when they are the same id. */
  lemma IntStringInjective(i: int, j: int)
    ensures IntString(i) == IntString(j) <==> i == j
  {
    if IntString(i) == IntString(j) {
      ParseIntString(i);
      ParseIntString(j);
    }
  }

  // ---------------------------------------------------------------------
  // The key a reply names
  // ---------------------------------------------------------------------

  /**
   * `str(v)` for the JSON values whose Python string form is modelled:
   * integers, strings and booleans. `None` stands for JSON `null` (which the
   * client treats as an absent `reply_to`) and for arrays and objects, whose
   * Python string form begins with `[` or `{` and therefore never equals a
   * registry key, every one of which is a decimal numeral.
   */
  function StrForm(v: Json): Option<string> {
    match v
    case JInt(i) => Some(IntString(i))
    case JStr(s) => Some(s)
    case JBool(b) => Some(if b then "True" else "False")
    case _ => None
  }

  /** `str(msg.get("reply_to"))`, or `None` when the message names no request. */
  function ReplyKey(msg: Json): (k: Option<string>)
    ensures k.Some? ==> msg.JObject? && "reply_to" in msg.fields
  {
    match msg
    case JObject(fields) => if "reply_to" in fields then StrForm(fields["reply_to"]) else None
    case _ => None
  }

  /**
   * The integer `1` and the string `"1"` name the same request; one
   * direction of `ReplyKeyNamesIdIff`.
   */
  lemma ReplyKeyIntOrString(fields: Object, id: int)
    requires "reply_to" in fields
    requires fields["reply_to"] == JInt(id) || fields["reply_to"] == JStr(IntString(id))
    ensures ReplyKey(JObject(fields)) == Some(IntString(id))
  {
  }

  /**
   * An integer `reply_to` matches the key of one id only: its own; the
   * integer case of `ReplyKeyNamesIdIff`.
   */
  lemma ReplyKeyIntMatchesOnlyItself(fields: Object, j: int, id: int)
    requires "reply_to" in fields && fields["reply_to"] == JInt(j)
    ensures ReplyKey(JObject(fields)) == Some(IntString(id)) <==> j == id
  {
    IntStringInjective(j, id);
  }

  /**
   * The reply names the request with id `id` exactly when its `reply_to` is
   * that id as a number or as its decimal string: no other number, string
   * or boolean turns into the same key.
   */
  lemma ReplyKeyNamesIdIff(fields: Object, id: int)
    requires "reply_to" in fields
    ensures ReplyKey(JObject(fields)) == Some(IntString(id)) <==>
              fields["reply_to"] == JInt(id) || fields["reply_to"] == JStr(IntString(id))
  {
    match fields["reply_to"]
    case JInt(j) => IntStringInjective(j, id);
    case JBool(b) =>
      var s := IntString(id);
      assert IsDigit(s[0]) || s[0] == '-';
      assert s != "True" && s != "False";
    case _ =>
  }

  /** `reply_to: null` names no request: `str(None)` is never looked up. */
  lemma NullReplyNamesNothing(fields: Object)
    requires "reply_to" in fields && fields["reply_to"] == JNull
    ensures ReplyKey(JObject(fields)) == None
  {
  }

  // ---------------------------------------------------------------------
  // Building the outgoing request
  // ---------------------------------------------------------------------

  const TYPE_FIELD := "type"
  const MSG_ID_FIELD := "msg_id"
  const DEFAULT_TYPE := JStr("request")

  /**
   * `dict(payload)`, then `setdefault("type", "request")`, then
   * `["msg_id"] = msg_id`. The caller's dict is a value here, so the copy
   * cannot disturb it.
   */
  function BuildRequest(payload: Object, id: int): (r: Object)
    ensures r.Keys == payload.Keys + {TYPE_FIELD, MSG_ID_FIELD}
    ensures r[MSG_ID_FIELD] == JInt(id)
    ensures TYPE_FIELD in payload ==> r[TYPE_FIELD] == payload[TYPE_FIELD]
    ensures TYPE_FIELD !in payload ==> r[TYPE_FIELD] == DEFAULT_TYPE
    ensures forall k :: k in payload && k != MSG_ID_FIELD ==> r[k] == payload[k]
  {
    var typed := if TYPE_FIELD in payload then payload else payload[TYPE_FIELD := DEFAULT_TYPE];
    typed[MSG_ID_FIELD := JInt(id)]
  }

  /**
   * Building twice only renumbers: a type already set is kept and the
   * second id replaces the first.
   */
  lemma BuildRequestRenumbers(payload: Object, id1: int, id2: int)
    ensures BuildRequest(BuildRequest(payload, id1), id2) == BuildRequest(payload, id2)
  {
  }
}

=== FILE: registry.dfy ===
/**
 * The correlation registry `_response_futures`: a map from `str(msg_id)` to
 * the single-shot future the sender awaits, and the two operations that
 * complete futures in it: dispatching an incoming message and failing every
 * future still outstanding.
 */
module Registry {
  import opened Common
  import opened Messages

  /** Why a future was failed: `close()` or the end of the reader loop. */
  datatype Reason = ClientClosed | ConnectionLost

  /** An `asyncio.Future` as the protocol uses it. */
  datatype Slot = Pending | Resolved(msg: Json) | Failed(reason: Reason) {
    /** `fut.done()` */
    predicate Done() {
      !Pending?
    }
  }

  type Futures = map<string, Slot>

  /**
   * Failing every outstanding future with the same exception, as `close()`
   * and the reader loop's `finally` do: every pending future fails with
   * `reason`, completed ones keep their outcome, and no entry is added or
   * removed.
   */
  function FailPending(f: Futures, reason: Reason): (r: Futures)
    ensures r.Keys == f.Keys
    ensures forall k :: k in f && f[k].Done() ==> r[k] == f[k]
    ensures forall k :: k in f && f[k].Pending? ==> r[k] == Failed(reason)
  {
    map k | k in f :: if f[k].Pending? then Failed(reason) else f[k]
  }

  /** After failing all, nothing is left pending. */
  lemma FailPendingLeavesNothingPending(f: Futures, reason: Reason)
    ensures forall k :: k in FailPending(f, reason) ==> FailPending(f, reason)[k].Done()
  {
  }

  /**
   * Whichever of `close()` and the reader loop's exit fails the outstanding
   * futures first decides their outcome; the second changes nothing.
   */
  lemma FailPendingFirstWins(f: Futures, first: Reason, second: Reason)
    ensures FailPending(FailPending(f, first), second) == FailPending(f, first)
  {
  }

  /** What `_handle_message` does with one message. */
  datatype Dispatch =
    | Delivered(futures: Futures)  // a pending future got the message as its result
    | Notified                     // the notification path; the registry is untouched
    | NotAnObject                  // `msg.get` raises: the message is not a JSON object

  /**
   * `_handle_message`: resolve the future named by `str(reply_to)` if it is
   * registered and not yet done; otherwise the message is a notification.
   */
  function HandleMessage(f: Futures, msg: Json): (r: Dispatch)
    ensures r.NotAnObject? <==> !msg.JObject?
    ensures r.Delivered? <==>
              ReplyKey(msg).Some? && ReplyKey(msg).value in f && f[ReplyKey(msg).value].Pending?
    ensures r.Delivered? ==> r.futures.Keys == f.Keys
    ensures r.Delivered? ==> r.futures[ReplyKey(msg).value] == Resolved(msg)
    ensures r.Delivered? ==> forall k :: k in f && k != ReplyKey(msg).value ==> r.futures[k] == f[k]
  {
    if !msg.JObject? then NotAnObject
    else
      match ReplyKey(msg)
      case None => Notified
      case Some(key) =>
        if key in f && f[key].Pending? then Delivered(f[key := Resolved(msg)]) else Notified
  }

  /** Dispatch never completes a future twice: an entry already done keeps its outcome. */
  lemma HandleMessageKeepsDone(f: Futures, msg: Json, k: string)
    requires k in f && f[k].Done()
    ensures HandleMessage(f, msg).Delivered? ==> HandleMessage(f, msg).futures[k] == f[k]
  {
  }

  /** Dispatch never makes a done future pending again, nor adds an entry. */
  lemma HandleMessageNeverReopens(f: Futures, msg: Json)
    requires forall k :: k in f ==> f[k].Done()
    ensures HandleMessage(f, msg).Delivered? ==>
              forall k :: k in HandleMessage(f, msg).futures ==> HandleMessage(f, msg).futures[k].Done()
  {
  }

  /**
   * A reply whose `reply_to` is the request's id, as a number or as its
   * decimal string, completes that request's pending future and no other.
   */
  lemma ReplyResolvesItsRequest(f: Futures, fields: Object, id: int)
    requires "reply_to" in fields
    requires fields["reply_to"] == JInt(id) || fields["reply_to"] == JStr(IntString(id))
    requires IntString(id) in f && f[IntString(id)].Pending?
    ensures HandleMessage(f, JObject(fields)) == Delivered(f[IntString(id) := Resolved(JObject(fields))])
  {
  }

  /**
   * A message whose `reply_to` is `null` is not matched against the
   * registry: it goes the notification way and changes nothing.
   */
  lemma NullReplyIsNotification(f: Futures, fields: Object)
    requires "reply_to" in fields && fields["reply_to"] == JNull
    ensures HandleMessage(f, JObject(fields)) == Notified
  {
    NullReplyNamesNothing(fields);
  }

  /** A reply naming another id leaves this request's entry alone. */
  lemma ReplyForOtherIdIgnored(f: Futures, fields: Object, j: int, id: int)
    requires "reply_to" in fields && fields["reply_to"] == JInt(j)
    requires j != id && IntString(id) in f
    ensures HandleMessage(f, JObject(fields)).Delivered? ==>
              HandleMessage(f, JObject(fields)).futures[IntString(id)] == f[IntString(id)]
  {
    IntStringInjective(j, id);
  }
}
